=== FILE: README.md ===
# SkyBridge flight dashboard: a Dafny model of its core

SkyBridge is a small flight dashboard. The Flask server (`testing/app.py`) answers
`/api/flights?callsigns=...`:

- It splits the query into callsigns and normalises each one.
- It converts each callsign to a likely IATA flight code, using an ICAO-to-IATA airline registry.
- It looks the callsign up in an OpenSky snapshot of state vectors.
- It records the aircraft's position in a short in-memory history.
- It asks AviationStack about the flight code.
- It derives one status per flight: "unknown", "live", "scheduled" or "landed".

The page script (`testing/static/main.js`) covers two steps:

- `focusFlight` derives the status shown on a flight card and renders it into the card's status pill.
- `updateSummaryCounters` tallies the pills into the total, active, scheduled, landed and unknown counters.

An offline generator (`testing/generate_airlines_csv.py`) builds the registry file from OpenFlights
`airlines.dat`. It keeps the lines with valid codes, keeps the last airline per ICAO code, and writes
the codes sorted with a header row. The server then loads that file into its registry (`load_airline_db`).

The model is pure, one module per concern:

| module | file | concern |
|---|---|---|
| `Wrappers` | wrappers.dfy | `Option`, standing in for `None` / `null` |
| `Seqs` | seqs.dfy | slicing facts used by the proofs |
| `Strings` | strings.dfy | Python/JavaScript string operations: strip, ASCII case mapping, split/join, code-point order |
| `Callsign` | callsign.dfy | `normalize_callsign`, `callsign_to_iata`, the query split |
| `OpenSky` | opensky.dfy | state vectors and `find_opensky_state_by_callsign` |
| `History` | history.dfy | `POSITION_HISTORY` and `record_history` |
| `FlightsApi` | flightsapi.dfy | `fetch_aviationstack_for_iata`, the status derivation, the `/api/flights` loop |
| `Dashboard` | dashboard.dfy | `focusFlight`'s status and pill, `updateSummaryCounters` |
| `AirlineRegistry` | airlineregistry.dfy | the generator and `load_airline_db` |

Everything the server reads from outside becomes a parameter:

- the OpenSky snapshot, as a list of `StateVector`s;
- whether an AviationStack key is configured (`hasKey`);
- AviationStack itself, as a function from (query key, flight code) to a `Response`;
- the registry, as a `map`;
- the history store, passed in and returned;
- the clock: `now` for one visit, and `clock(i)` for the reading taken while the `i`-th callsign of the query is visited.

The DOM is a list of flight cards in document order. Each card has a callsign and the text of its status pill, if it has one.

## Model

| member | source | states |
|---|---|---|
| Callsign.Normalize | testing/app.py:78-82 | Empty stays empty. The result is never longer than the input, has no surrounding whitespace and no lower-case letter. |
| Callsign.NormalizeIsUpperMiddle | testing/app.py:78-82 | A non-empty callsign normalises to the upper-cased slice of the input that starts after its leading whitespace. Only whitespace precedes and follows that slice. |
| Callsign.NormalizeIdempotent | testing/app.py:78-82 | Normalising twice is normalising once. |
| Callsign.NormalizeFixesNormalized | testing/app.py:78-82 | A string with no surrounding whitespace and no lower-case letter is its own normal form. |
| Callsign.Clean | testing/app.py:100-101 | Keeps only alphanumeric characters, all of them from the input, and leaves an all-alphanumeric string unchanged. |
| Callsign.CleanConcat | testing/app.py:101 | Cleaning a concatenation cleans each part and concatenates the results. Together with `Callsign.CleanChar` (one character is kept exactly when it is alphanumeric), this fixes the result on every string. |
| Callsign.ToIataCases | testing/app.py:96-118 | The four outcomes on the cleaned callsign: an IATA-shaped code is kept; an ICAO-shaped code gets the registry's code, or else its first two letters, before the flight number; anything else comes back cleaned. |
| Callsign.ToIata | testing/app.py:96-98 | An empty callsign converts to the empty code. |
| Callsign.ToIataFixesIataCodes | testing/app.py:102-104 | A normalised IATA-shaped code is returned unchanged, whatever the registry holds. |
| Callsign.IcaoCallsignConversion | testing/app.py:106-116 | For an upper-case ICAO callsign, the result is the registry code (or the first two letters) followed by the flight number. |
| Callsign.RegistryMissDropsThirdLetter | testing/app.py:113-116 | On a registry miss an ICAO callsign with an all-digit flight number loses its third letter (AAL8 becomes AA8). The result is an IATA code that converts to itself. |
| Callsign.ParseCallsigns | testing/app.py:207-212 | An empty query gives no callsigns. Every token is non-empty, holds no comma or space, and has no surrounding whitespace. |
| Callsign.ParseCallsignsAtSeparator | testing/app.py:207-212 | A comma or a space in the query separates it: the callsigns are those before it, then those after it. |
| Callsign.ParseCallsignsSingle | testing/app.py:207-212 | A query with no comma and no space gives its whitespace-stripped form as the one callsign, or nothing when that is empty. With `ParseCallsignsAtSeparator`, this determines the result for every query. |
| Callsign.ParseCallsignsOfJoin | testing/app.py:207-212 | Round trip: joining well-formed tokens with commas and parsing the result gives back exactly the tokens, in order. |
| Strings.StripIsMiddle | testing/app.py:82 | What `strip()` keeps is the slice starting where the leading whitespace ends, with only whitespace before and after it. |
| Strings.StripIdempotent | testing/app.py:141 | Stripping twice is stripping once. |
| Strings.JoinSplit | testing/app.py:212 | `sep.join(s.split(sep)) == s`. |
| Strings.SplitJoin | testing/app.py:212 | Splitting a join of separator-free pieces gives back the pieces. |
| Strings.SplitAtSeparator | testing/app.py:212 | A separator splits the string into the pieces before it followed by the pieces after it. |
| OpenSky.FirstMatch | testing/app.py:140-147 | Finds the first state in list order whose callsign matches, or reports that none does. |
| OpenSky.StateCallsign | testing/app.py:141 | A state vector without a callsign reads as the empty callsign. |
| OpenSky.StateCallsignIsNormalized | testing/app.py:141 | The state's callsign is its callsign field normalised exactly as the tracked callsign is. |
| OpenSky.MatchesIffAgreeOnCommonPrefix | testing/app.py:141-145 | `OpenSky.Matches`, stated independently: a state matches exactly when it has a callsign and the two callsigns agree on every position both have. |
| OpenSky.FixOf | testing/app.py:234-237 | The fix copies latitude and longitude. The heading is the true track when the list reaches index 10, and absent otherwise. The altitude is the geometric altitude when the list reaches index 13, else the barometric altitude when it reaches index 7, else absent. |
| OpenSky.FixOfReadsOnlySentFields | testing/app.py:234-237 | Two state vectors of the same length that agree on the fields both sent give the same fix, so no field beyond the list is read. |
| OpenSky.FindStateAsWritten | testing/app.py:132-147 | As written, only the literally empty callsign is refused. |
| OpenSky.BlankCallsignMatchesAnyState | testing/app.py:137-145 | As written, a blank callsign such as " " matches any state with a callsign: the state found is exactly the first state that has a non-blank callsign. |
| OpenSky.FindState | testing/app.py:132-147 | Corrected lookup. A blank callsign finds nothing. A found state has a non-empty callsign, matches (equal, or either callsign a prefix of the other) and no earlier state matches. When nothing is found, no state matches. |
| OpenSky.FindStateAgreesOnNonBlank | testing/app.py:137-139 | The two lookups agree on every callsign that does not normalise to "". |
| History.Record | testing/app.py:150-156 | An empty key changes nothing. Otherwise the position is appended, only the newest 30 are kept, other keys are untouched, and the per-key bound of 30 is preserved. |
| History.RecordAllKeepsNewest | testing/app.py:150-156 | After any number of recordings, a key holds exactly the newest 30 of everything recorded there, in order. |
| FlightsApi.FetchAviation | testing/app.py:159-189 | The result holds data exactly when it holds no error, and every error is one of the four tags. A missing key gives no_api_key and an empty code gives no_iata. A non-empty `flight_iata` answer gives its first record. An empty one falls back to `flight_icao`, whose first record is taken when non-empty. no_data appears exactly when both queries come back empty. "error" appears exactly when a request that was made failed. |
| FlightsApi.FetchAviationAsksOnlyWhatItNeeds | testing/app.py:165-189 | Two AviationStack services that agree on the `flight_iata` answer, and on the `flight_icao` answer when the first is empty, give the same lookup result. Without a key or a code, no answer matters. |
| FlightsApi.StatusOf | testing/app.py:226-262 | The status is one of the four. A scheduled or landed report is the status. Otherwise "live" holds exactly when the OpenSky altitude exceeds 1000, and "unknown" exactly when it does not. |
| FlightsApi.ReportOverridesPosition | testing/app.py:258-262 | With a scheduled or landed report, the OpenSky position does not affect the status. |
| FlightsApi.OtherReportsAreIgnored | testing/app.py:258-262 | Any other report leaves the status to OpenSky alone. |
| FlightsApi.AviationErrorAsWritten | testing/app.py:259-264 | As written, `aviation_error` is present exactly when the flight object is truthy and its status is missing or empty, and then it holds the lookup's error tag. |
| FlightsApi.AsWrittenErrorIsNeverTagged | testing/app.py:246-264 | As written, an entry never carries an error tag: the field is absent or null. |
| FlightsApi.FailedLookupLosesItsReason | testing/app.py:165-166 | With no API key the entry as written has no `aviation_error`, and the corrected entry reports no_api_key. |
| FlightsApi.AviationError | testing/app.py:246-264 | Corrected: the field is present exactly when no truthy flight object came back, and it carries the lookup's error tag. |
| FlightsApi.AviationErrorFieldsAgree | testing/app.py:246-264 | The as-written and corrected `aviation_error` agree exactly when the flight object is truthy and has a status. |
| FlightsApi.PositionOf | testing/app.py:153 | The recorded position keeps the fix's latitude, longitude, heading and altitude, and is stamped with the clock reading. |
| FlightsApi.FixFor | testing/app.py:231-238 | There is an OpenSky position exactly when the lookup finds a state, and then it is that state's fix. |
| FlightsApi.StoreAfter | testing/app.py:240-243 | With both coordinates and a non-empty callsign, the callsign's history becomes the newest 30 of its old history plus the new position, which is last. Otherwise the store is unchanged. Other keys are untouched and the bound is kept. |
| FlightsApi.Assemble | testing/app.py:220-267 | The entry put together from the looked-up parts: aviation data only from a truthy flight object, the status derived from the fix and that data, and the history of the updated store. `aviation_error` is the corrected field `FlightsApi.AviationError` of the fetch (see Findings): present exactly when there is no aviation data, carrying the lookup's tag. |
| FlightsApi.Entry | testing/app.py:218-267 | One flight entry for a callsign already in normal form, as the loop passes it: its converted code, and the fix of the matched state exactly when a state matched. The status is the one `StatusOf` derives from the fix and the aviation data, and it is "live" only with a fix. Aviation data is the fetched record when truthy. `aviation_error` is present exactly when aviation data is absent, carrying the lookup's tag; this is the corrected field (see `FlightsApi.AviationError` under Findings). The history is the newest 30 of the old history plus the new position. The new store is `StoreAfter` of the old one. Other callsigns' histories are unchanged and stay bounded, and the store gains no key but the callsign. |
| FlightsApi.IataOfNormalized | testing/app.py:218-219 | Converting the normalised callsign is converting the raw one. |
| FlightsApi.FindStateOfNormalized | testing/app.py:218-231 | Looking up the normalised callsign is looking up the raw one. |
| FlightsApi.NormalizeToken | testing/app.py:212-218 | A query token normalises to its upper-cased form. |
| FlightsApi.Visit | testing/app.py:217-269 | The entry built for a token names the upper-cased token and its converted code. It carries the fix of the state matching the token, the fetched record for the code when that record is truthy, and the (corrected) error object of that fetch. Its status is derived from the fix and the record. When the fix has coordinates, the last history point is that fix stamped with the clock reading. The entry's history is what the new store holds for the callsign. The new store is `StoreAfter` of the old one for the normalised token: the fix recorded, stamped with the clock reading, when it has both coordinates, and the store unchanged otherwise. The store gains no key but that callsign and changes only under it. |
| FlightsApi.EntryOfToken | testing/app.py:218-225 | A query token normalises to its upper-cased form, and the entry built for that form is the entry for the token. |
| FlightsApi.VisitAll | testing/app.py:216-269 | One entry per token, in token order, each with the properties `Visit` states, the `i`-th stamped with the `i`-th clock reading. The final store is `StoreAfterAll`: the visits' `StoreAfter` steps applied in token order, each with its own clock reading. A visited callsign's history therefore grows from its old history as `StoreAfter` states, and is kept when its fix has no coordinates. Histories of callsigns not visited are unchanged, and the store gains no key but the visited callsigns. The last entry about each callsign carries the history the final store holds for it. The history bound is preserved. |
| FlightsApi.AppendKeepsStore | testing/app.py:216-266 | A visit that changes the store only under its own callsign keeps the store's new keys among the visited callsigns, and keeps every latest entry's history equal to the stored one. |
| FlightsApi.ApiFlights | testing/app.py:200-271 | An empty query gives no flights and leaves the store alone. Otherwise there is one entry per parsed callsign, in query order, with the effects of `VisitAll`: each entry as `Visit` states it, with the corrected `aviation_error`, and the final store the in-order fold `StoreAfterAll` over the parsed callsigns. |
| Dashboard.DeriveStatus | testing/static/main.js:215-223 | The status is never empty. It is "active" exactly when reported so or when live without an informative report, "unknown" exactly when not live without one, and otherwise the reported status. |
| Dashboard.DeriveStatusIdempotent | testing/static/main.js:218-223 | Deriving again from a derived status changes nothing. |
| Dashboard.PillText | testing/static/main.js:247-251 | The pill is the upper-cased status padded only with whitespace: trimming the pill trims the upper-cased status. |
| Dashboard.Classify | testing/static/main.js:156-168 | A card without a pill is unknown. Otherwise the pill text, trimmed and lower-cased, is active, scheduled or landed exactly when the card falls in that bucket. |
| Dashboard.PillClassifiesAsStatus | testing/static/main.js:163-168 | A rendered pill (padded, upper-cased) is tallied in the bucket of its status, trimmed and lower-cased. |
| Dashboard.FocusFlight | testing/static/main.js:202-252 | Without flight data nothing changes. Otherwise only the first card with the slot's callsign changes, and its pill shows the derived status. |
| Dashboard.FocusedLiveFlightCountsActive | testing/static/main.js:218-253 | A focused flight that is live with no informative status is counted as active. |
| Dashboard.UpdateSummaryCounters | testing/static/main.js:146-176 | Each counter is the number of cards in its bucket, a card without a pill counts as unknown, and the four counters add up to the total. |
| Dashboard.CountsPartition | testing/static/main.js:155-169 | Every card is counted in exactly one bucket. |
| Dashboard.CountUpdate | testing/static/main.js:155-169 | Replacing one card moves it from its old bucket to its new one and changes no other count. |
| Dashboard.FocusMovesAtMostOneCard | testing/static/main.js:245-253 | Focusing a flight changes each counter by at most one. |
| AirlineRegistry.ParseFields | testing/generate_airlines_csv.py:10-20 | A line gives an airline exactly when it has at least seven fields and its unquoted IATA and ICAO codes are non-empty and not `\N`. The airline is (field 4, field 3, field 1), unquoted. |
| AirlineRegistry.ParseLine | testing/generate_airlines_csv.py:10-20 | Any airline a line gives has valid ICAO and IATA codes. |
| AirlineRegistry.ParseLineOfFields | testing/generate_airlines_csv.py:10 | A line of comma-free fields joined by commas, with no surrounding whitespace, is read back as exactly those fields. |
| AirlineRegistry.Kept | testing/generate_airlines_csv.py:8-20 | The kept airlines all have valid codes, and there are no more of them than lines. |
| AirlineRegistry.KeptMembers | testing/generate_airlines_csv.py:8-20 | An airline is kept exactly when some line of the file parses to it. |
| AirlineRegistry.KeptSnoc | testing/generate_airlines_csv.py:8-20 | Reading one more line keeps the airlines so far, in file order, and appends that line's airline when it parses. |
| AirlineRegistry.Upsert | testing/generate_airlines_csv.py:25 | A dict assignment: the codes stay distinct. An existing code is overwritten in place and a new one is added. |
| AirlineRegistry.Dedup | testing/generate_airlines_csv.py:22-25 | One entry per ICAO code of the input, and each is the last airline with that code. |
| AirlineRegistry.Sort | testing/generate_airlines_csv.py:30 | A permutation in strictly increasing ICAO order. |
| AirlineRegistry.Table | testing/generate_airlines_csv.py:22-31 | Strictly ascending, with exactly the kept ICAO codes, one entry each. |
| AirlineRegistry.TableKeepsLast | testing/generate_airlines_csv.py:23-25 | Each table entry is the last kept airline with its code. |
| AirlineRegistry.Emit | testing/generate_airlines_csv.py:27-33 | The header row comes first, followed by one row per distinct ICAO code of the kept airlines. The printed count is the number of distinct codes. |
| AirlineRegistry.Generate | testing/generate_airlines_csv.py:27-33 | The header row comes first, then one row per distinct kept ICAO code. The printed count is that number. |
| AirlineRegistry.EmitRowIsLast | testing/generate_airlines_csv.py:30-31 | Every data row is (icao, iata, name) of the last kept airline with that code. |
| AirlineRegistry.EmitAscending | testing/generate_airlines_csv.py:30 | ICAO codes strictly increase down the file, so none repeats. |
| AirlineRegistry.EmitCoversKept | testing/generate_airlines_csv.py:19-31 | Every kept ICAO code has a row. |
| AirlineRegistry.LoadRegistry | testing/app.py:55-63 | The registry's keys are exactly the rows' stripped, upper-cased ICAO codes: each row's code is a key, and each key comes from some row. There are no more entries than rows. |
| AirlineRegistry.LoadRegistryKeepsLast | testing/app.py:60-63 | A row that no later row overrides supplies its code's stripped, upper-cased IATA value. |
| AirlineRegistry.LoadGeneratedTable | testing/app.py:58-63 | End to end, when the kept codes are already stripped and upper-case: loading the generated table maps every kept ICAO code to the IATA code of the last kept airline with that code. |

## Left out

- The HTTP layer, Flask routing, JSON encoding, `requests`, TLS options and timeouts. An AviationStack call is a `Response` parameter. Any exception in the `try` block is `Failure`.
- File I/O in the generator and in `load_airline_db`:
  - the generator is modelled from the lines of `airlines.dat` to the rows of `airlines.csv`, before CSV quoting;
  - the loader is modelled from the (icao, iata) columns `csv.DictReader` yields;
  - a missing file, which leaves the registry empty, is not modelled.
- The clock: each `int(time.time())` in `record_history` is a parameter, one reading per visited callsign (`clock(i)`), so the readings of one request are unconstrained and may differ. Their relation to the AviationStack timeouts (10 s and 8 s) that can pass between them is not modelled. The response's `now` field is not modelled.
- Printing and logging.
- Dashboard.PillText: the source renders the pill through `innerHTML`. HTML parsing is not modelled: tags, character references, and a `"` that closes the class attribute. The model treats the status as literal text, so its contract holds for statuses with no `<`, `&` or `"`.
- Leaflet markers, popups, `alert` and `map.setView` in `focusFlight`. `/api/trips`, trip deletion and the other page code outside the two named functions.
- The `/api/flight/<callsign>` endpoint that `focusFlight` fetches is not part of this model. Its answer is the `FlightInfo` parameter.
- Case mapping and character classes are ASCII only. Python's `upper()`, `isalnum()`, `isalpha()` and `isdigit()`, and JavaScript's `toUpperCase()` and `toLowerCase()`, also act on non-ASCII letters and digits; the model does not.
- Strings are sequences of code points, so there is no UTF-8 decoding.
- Callsign.Clean: keeps ASCII letters and digits only, where Python keeps every Unicode alphanumeric.
- The JSON values of the flight entry:
  - `aviation` keeps only whether the object was empty and its `flight_status`;
  - the other copied fields (departure, arrival, airline, ...) are left out.
- OpenSky.FixOf: requires at least seven fields. The source reads `st[5]` and `st[6]` only of the matched state, and `st[1]` only of the states it scans. `FlightsApi.WellFormed` asks more: every state of the snapshot must have seven fields. The `IndexError` the source raises on a short matched or scanned state is not modelled. Altitudes are whole numbers here, and only the comparison with 1000 is modelled.
- FlightsApi.Assemble: sets `aviation_error` to the corrected `FlightsApi.AviationError` of the fetch, which is present whenever aviation data is absent. The source sets it only for a truthy flight object without `flight_status` (see Findings).
- FlightsApi.Entry: builds `aviation_error` with the corrected `FlightsApi.AviationError`, not as the source writes it. The as-written field is `FlightsApi.AviationErrorAsWritten`, and the Findings table relates the two.
- FlightsApi.Visit: its entry is built by `FlightsApi.Entry`, so it carries the corrected `aviation_error`, not the as-written one.
- FlightsApi.VisitAll: every entry carries the corrected `aviation_error`. For example, with no AviationStack key each entry has `aviation_error` "no_api_key", where the source adds no such key.
- FlightsApi.ApiFlights: the entries carry the corrected `aviation_error`, as for `FlightsApi.VisitAll`.
- The history lists the route puts into its entries are the live lists of `POSITION_HISTORY`. When one query names the same callsign twice, the earlier entry's list keeps growing. The model snapshots each entry's history when the entry is built.
- Concurrent requests sharing `POSITION_HISTORY`.
- AirlineRegistry.ParseLine: splits on every comma, as the source does, so a quoted name containing a comma shifts the fields. The model reproduces this and does not model CSV quoting.

## Findings

| source | as written | input that shows it | evidently intended | confidence | as-written member | corrected member |
|---|---|---|---|---|---|---|
| testing/app.py:259-264 | The `else: entry["aviation_error"] = avi_err` belongs to `if fs`, not `if avi_data`. The field is set only when a truthy record has no status, and then `avi_err` is always None. | No AviationStack key configured: the lookup returns `(None, "no_api_key")` and the entry has no `aviation_error` key. | Attach the `else` to `if avi_data`, so a failed lookup reports its tag. | medium, not executed | FlightsApi.AviationErrorAsWritten (see FlightsApi.AsWrittenErrorIsNeverTagged, FlightsApi.FailedLookupLosesItsReason) | FlightsApi.AviationError |
| testing/app.py:137-146 | The empty check runs on the raw callsign, before normalisation. | `find_opensky_state_by_callsign(states, " ")`: the callsign normalises to "", and "" is a prefix of every state callsign, so the first state with any callsign is returned. | Refuse callsigns that normalise to "". | medium, not executed; `api_flights` itself never passes a blank token | OpenSky.FindStateAsWritten (see OpenSky.BlankCallsignMatchesAnyState) | OpenSky.FindState |

=== FILE: airlineregistry.dfy ===
/** The airline registry (testing/generate_airlines_csv.py and `load_airline_db` in testing/app.py):
    the generator turns OpenFlights `airlines.dat` lines into a table of ICAO code, IATA code and name,
    one row per ICAO code, sorted; the server loads that table into its ICAO-to-IATA map. */
module AirlineRegistry {
  import opened Wrappers
  import opened Strings
  import opened Seqs
  import Callsign

  /** One kept airline: its ICAO designator, IATA code and name. */
  datatype Airline = Airline(icao: string, iata: string, name: string)

  // ---------------------------------------------------------------------------
  // Reading airlines.dat
  // ---------------------------------------------------------------------------

  predicate IsQuote(c: char) { c == '"' }

  /** `field.strip('"')`: the field without the double quotes at either end. */
  function Unquote(field: string): (r: string)
    ensures |r| <= |field|
    ensures r == [] || (r[0] != '"' && r[|r| - 1] != '"')
  {
    Strip(field, IsQuote)
  }

  /** A code the generator keeps: non-empty and not the `\N` null marker. */
  predicate ValidCode(code: string) {
    code != [] && code != "\\N"
  }

  /** The airline a line's comma-separated fields describe: fields 1 (name), 3 (IATA) and 4 (ICAO),
      unquoted; none when the line has fewer than seven fields or either code is invalid. */
  function ParseFields(parts: seq<string>): (r: Option<Airline>)
    ensures r.Some? <==> |parts| >= 7 && ValidCode(Unquote(parts[3])) && ValidCode(Unquote(parts[4]))
    ensures r.Some? ==> r.value == Airline(Unquote(parts[4]), Unquote(parts[3]), Unquote(parts[1]))
  {
    if |parts| < 7 then None
    else
      var name := Unquote(parts[1]);
      var iata := Unquote(parts[3]);
      var icao := Unquote(parts[4]);
      if iata != [] && iata != "\\N" && icao != [] && icao != "\\N" then Some(Airline(icao, iata, name)) else None
  }

  /** One line of airlines.dat: stripped of surrounding whitespace and split on every comma (a comma
      inside a quoted name splits it too). */
  function ParseLine(line: string): (r: Option<Airline>)
    ensures r.Some? ==> ValidCode(r.value.icao) && ValidCode(r.value.iata)
  {
    ParseFields(Split(Strip(line, IsPySpace), ','))
  }

  /** A line written as comma-free fields joined by commas, with no surrounding whitespace, parses
      to the airline of exactly those fields. */
  lemma ParseLineOfFields(parts: seq<string>)
    requires |parts| >= 1 && forall i :: 0 <= i < |parts| ==> ',' !in parts[i]
    requires Strip(Join(parts, ','), IsPySpace) == Join(parts, ',')
    ensures ParseLine(Join(parts, ',')) == ParseFields(parts)
  {
    SplitJoin(parts, ',');
  }

  /** What each line parses to, line by line. */
  function Parsed(lines: seq<string>): (r: seq<Option<Airline>>)
    ensures |r| == |lines| && forall i :: 0 <= i < |lines| ==> r[i] == ParseLine(lines[i])
  {
    seq(|lines|, i requires 0 <= i < |lines| => ParseLine(lines[i]))
  }

  /** The airlines the generator keeps, in file order. */
  function Kept(lines: seq<string>): (r: seq<Airline>)
    ensures |r| <= |lines|
    ensures forall i :: 0 <= i < |r| ==> ValidCode(r[i].icao) && ValidCode(r[i].iata)
  {
    var r := Values(Parsed(lines));
    assert forall i :: 0 <= i < |r| ==> Some(r[i]) in Parsed(lines);
    r
  }

  /** An airline is kept exactly when some line of the file parses to it. */
  lemma KeptMembers(lines: seq<string>, a: Airline)
    ensures a in Kept(lines) <==> exists i :: 0 <= i < |lines| && ParseLine(lines[i]) == Some(a)
  {
    ValuesMembers(Parsed(lines), a);
  }

  /** Reading one more line keeps the airlines kept so far, in order, and adds that line's airline
      after them when it parses. */
  lemma KeptSnoc(lines: seq<string>, l: string)
    ensures Kept(lines + [l]) == Kept(lines) + (if ParseLine(l).Some? then [ParseLine(l).value] else [])
  {
    assert Parsed(lines + [l]) == Parsed(lines) + [ParseLine(l)];
    ValuesSnoc(Parsed(lines), ParseLine(l));
  }

  // ---------------------------------------------------------------------------
  // Deduplication by ICAO code
  // ---------------------------------------------------------------------------

  /** The ICAO codes occurring in `airlines`. */
  function Keys(airlines: seq<Airline>): set<string> {
    set i | 0 <= i < |airlines| :: airlines[i].icao
  }

  /** No ICAO code occurs twice. */
  predicate DistinctKeys(airlines: seq<Airline>) {
    forall i, j :: 0 <= i < j < |airlines| ==> airlines[i].icao != airlines[j].icao
  }

  /** The last airline in `airlines` with ICAO code `icao`. */
  function LastWith(airlines: seq<Airline>, icao: string): (r: Option<Airline>)
    ensures r.Some? ==> r.value.icao == icao && r.value in airlines
    ensures r.None? <==> icao !in Keys(airlines)
    decreases |airlines|
  {
    if airlines == [] then None
    else
      var n := |airlines| - 1;
      if airlines[n].icao == icao then Some(airlines[n])
      else
        var r := LastWith(airlines[..n], icao);
        assert Keys(airlines) == Keys(airlines[..n]) + {airlines[n].icao} by {
          KeysOfSnoc(airlines[..n], airlines[n]);
          SplitLast(airlines);
        }
        r
  }


  /** The codes of a list with one more airline. */
  lemma KeysOfSnoc(airlines: seq<Airline>, a: Airline)
    ensures Keys(airlines + [a]) == Keys(airlines) + {a.icao}
  {
    var s := airlines + [a];
    assert forall i :: 0 <= i < |airlines| ==> s[i] == airlines[i];
    assert s[|airlines|] == a;
  }

  /** The index of the entry with code `icao`, if any. */
  function IndexOf(entries: seq<Airline>, icao: string): (r: Option<nat>)
    ensures r.Some? ==> r.value < |entries| && entries[r.value].icao == icao
    ensures r.None? ==> icao !in Keys(entries)
    decreases |entries|
  {
    if entries == [] then None
    else
      var n := |entries| - 1;
      if entries[n].icao == icao then Some(n)
      else
        match IndexOf(entries[..n], icao)
        case None =>
          assert Keys(entries) == Keys(entries[..n]) + {entries[n].icao} by {
            KeysOfSnoc(entries[..n], entries[n]);
            SplitLast(entries);
          }
          None
        case Some(i) => Some(i)
  }

  /** `unique[icao] = (iata, name)` on an insertion-ordered dictionary: an existing entry is
      overwritten in place, a new one goes at the end. */
  function Upsert(entries: seq<Airline>, a: Airline): (r: seq<Airline>)
    requires DistinctKeys(entries)
    ensures DistinctKeys(r)
    ensures Keys(r) == Keys(entries) + {a.icao}
    ensures |r| == if a.icao in Keys(entries) then |entries| else |entries| + 1
    ensures forall i :: 0 <= i < |r| ==> r[i] == a || (r[i].icao != a.icao && r[i] in entries)
    ensures a in r
  {
    match IndexOf(entries, a.icao)
    case Some(i) =>
      var r := entries[i := a];
      assert Keys(r) == Keys(entries) by {
        assert forall j :: 0 <= j < |r| ==> r[j].icao == entries[j].icao;
      }
      assert r[i] == a;
      r
    case None =>
      var r := entries + [a];
      KeysOfSnoc(entries, a);
      assert forall j :: 0 <= j < |entries| ==> r[j] == entries[j] && entries[j].icao in Keys(entries);
      assert r[|entries|] == a;
      r
  }

  /** The generator's `unique` dictionary after all kept airlines are written into it, in order. */
  function Dedup(airlines: seq<Airline>): (r: seq<Airline>)
    ensures DistinctKeys(r)
    ensures Keys(r) == Keys(airlines)
    ensures forall i :: 0 <= i < |r| ==> LastWith(airlines, r[i].icao) == Some(r[i])
    decreases |airlines|
  {
    if airlines == [] then []
    else
      var n := |airlines| - 1;
      var before := Dedup(airlines[..n]);
      SplitLast(airlines);
      KeysOfSnoc(airlines[..n], airlines[n]);
      DedupStep(airlines, before);
      Upsert(before, airlines[n])
  }

  /** Writing the last airline into a dictionary that holds the last airline per code of the earlier
      ones gives the last airline per code of them all. */
  lemma DedupStep(airlines: seq<Airline>, before: seq<Airline>)
    requires airlines != [] && DistinctKeys(before)
    requires forall i :: 0 <= i < |before| ==> LastWith(airlines[..|airlines| - 1], before[i].icao) == Some(before[i])
    ensures var r := Upsert(before, airlines[|airlines| - 1]);
      forall i :: 0 <= i < |r| ==> LastWith(airlines, r[i].icao) == Some(r[i])
  {
    var n := |airlines| - 1;
    var r := Upsert(before, airlines[n]);
    forall i | 0 <= i < |r| ensures LastWith(airlines, r[i].icao) == Some(r[i]) {
      if r[i] != airlines[n] {
        var j :| 0 <= j < |before| && before[j] == r[i];
        assert LastWith(airlines[..n], before[j].icao) == Some(before[j]);
      }
    }
  }

  /** A list without repeated codes has as many codes as entries. */
  lemma {:induction false} DistinctKeysCount(entries: seq<Airline>)
    requires DistinctKeys(entries)
    ensures |Keys(entries)| == |entries|
    decreases |entries|
  {
    if entries != [] {
      var n := |entries| - 1;
      DistinctKeysCount(entries[..n]);
      KeysOfSnoc(entries[..n], entries[n]);
      SplitLast(entries);
      assert entries[n].icao !in Keys(entries[..n]);
    }
  }

  // ---------------------------------------------------------------------------
  // Sorted emission
  // ---------------------------------------------------------------------------

  /** ICAO codes strictly increase from each entry to the next. */
  predicate Ascending(entries: seq<Airline>) {
    forall i :: 0 < i < |entries| ==> LexLess(entries[i - 1].icao, entries[i].icao)
  }

  /** No entry of `entries` has the code `icao`. */
  predicate Lacks(entries: seq<Airline>, icao: string) {
    forall i :: 0 <= i < |entries| ==> entries[i].icao != icao
  }

  /** An entry whose code sorts before the head of an ascending list can go in front of it. */
  lemma AscendingCons(a: Airline, sorted: seq<Airline>)
    requires Ascending(sorted) && (sorted == [] || LexLess(a.icao, sorted[0].icao))
    ensures Ascending([a] + sorted)
  {
    var r := [a] + sorted;
    assert forall i :: 1 <= i < |r| ==> r[i] == sorted[i - 1];
  }

  /** The tail of an ascending list without a code is ascending and without that code. */
  lemma AscendingTail(sorted: seq<Airline>, icao: string)
    requires sorted != [] && Ascending(sorted) && Lacks(sorted, icao)
    ensures Ascending(sorted[1..]) && Lacks(sorted[1..], icao)
  {
    var tail := sorted[1..];
    assert forall i :: 0 <= i < |tail| ==> tail[i] == sorted[i + 1];
  }

  /** Puts `a` into its place in an ascending list that does not hold its code. */
  function Insert(a: Airline, sorted: seq<Airline>): (r: seq<Airline>)
    requires Ascending(sorted) && Lacks(sorted, a.icao)
    ensures |r| == |sorted| + 1
    ensures Ascending(r)
    ensures multiset(r) == multiset(sorted) + multiset{a}
    ensures r[0] == a || (sorted != [] && r[0] == sorted[0])
    decreases |sorted|
  {
    if sorted == [] || LexLess(a.icao, sorted[0].icao) then
      AscendingCons(a, sorted);
      [a] + sorted
    else
      AscendingTail(sorted, a.icao);
      var rest := Insert(a, sorted[1..]);
      assert LexLess(sorted[0].icao, rest[0].icao) by {
        LexLessTotal(a.icao, sorted[0].icao);
      }
      AscendingCons(sorted[0], rest);
      assert multiset([sorted[0]] + rest) == multiset(sorted) + multiset{a} by {
        assert sorted == [sorted[0]] + sorted[1..];
      }
      [sorted[0]] + rest
  }

  /** `sorted(unique.items())`: the entries in increasing ICAO order. */
  function Sort(entries: seq<Airline>): (r: seq<Airline>)
    requires DistinctKeys(entries)
    ensures |r| == |entries|
    ensures Ascending(r)
    ensures multiset(r) == multiset(entries)
    decreases |entries|
  {
    if entries == [] then []
    else
      var n := |entries| - 1;
      var sorted := Sort(entries[..n]);
      assert Lacks(sorted, entries[n].icao) by {
        forall i | 0 <= i < |sorted| ensures sorted[i].icao != entries[n].icao {
          assert sorted[i] in multiset(entries[..n]);
        }
      }
      SplitLast(entries);
      Insert(entries[n], sorted)
  }

  /** In an ascending list every earlier code sorts before every later one. */
  lemma {:induction false} AscendingPairwise(entries: seq<Airline>, i: nat, j: nat)
    requires Ascending(entries) && i < j < |entries|
    ensures LexLess(entries[i].icao, entries[j].icao)
    decreases j - i
  {
    if i + 1 < j {
      AscendingPairwise(entries, i + 1, j);
      LexLessTransitive(entries[i].icao, entries[i + 1].icao, entries[j].icao);
    }
  }

  // ---------------------------------------------------------------------------
  // The generated table
  // ---------------------------------------------------------------------------

  /** Lists with the same elements have the same codes, and every element of one is in the other. */
  lemma SameElements(a: seq<Airline>, b: seq<Airline>)
    requires multiset(a) == multiset(b)
    ensures Keys(a) == Keys(b)
    ensures forall i :: 0 <= i < |a| ==> a[i] in b
  {
    forall i | 0 <= i < |a| ensures a[i] in b {
      assert a[i] in multiset(a);
    }
    forall i | 0 <= i < |b| ensures b[i] in a {
      assert b[i] in multiset(b);
    }
    assert Keys(a) <= Keys(b) by {
      forall k | k in Keys(a) ensures k in Keys(b) {
        var i :| 0 <= i < |a| && a[i].icao == k;
        var j :| 0 <= j < |b| && b[j] == a[i];
      }
    }
    assert Keys(b) <= Keys(a) by {
      forall k | k in Keys(b) ensures k in Keys(a) {
        var j :| 0 <= j < |b| && b[j].icao == k;
        var i :| 0 <= i < |a| && a[i] == b[j];
      }
    }
  }

  /** The generator's table for the kept airlines: one entry per ICAO code, the last airline with that
      code, in strictly increasing code order. */
  function Table(kept: seq<Airline>): (t: seq<Airline>)
    ensures Ascending(t)
    ensures |t| == |Keys(kept)|
    ensures Keys(t) == Keys(kept)
  {
    var unique := Dedup(kept);
    var t := Sort(unique);
    DistinctKeysCount(unique);
    SameElements(t, unique);
    t
  }

  /** Each table entry is the last kept airline with its code. */
  lemma TableKeepsLast(kept: seq<Airline>, i: nat)
    requires i < |Table(kept)|
    ensures LastWith(kept, Table(kept)[i].icao) == Some(Table(kept)[i])
  {
    var unique := Dedup(kept);
    var t := Sort(unique);
    SameElements(t, unique);
    var j :| 0 <= j < |unique| && unique[j] == t[i];
  }

  /** The header row the generator writes first. */
  const Header: seq<string> := ["icao", "iata", "name"]

  /** What the generator produces: the rows of airlines.csv (before CSV quoting) and the count it prints. */
  datatype Output = Output(rows: seq<seq<string>>, count: nat)

  /** The data row for an airline. */
  function RowOf(a: Airline): seq<string> {
    [a.icao, a.iata, a.name]
  }

  /** The header followed by one row per table entry. */
  function Rows(t: seq<Airline>): (rows: seq<seq<string>>)
    ensures |rows| == |t| + 1 && rows[0] == Header
    ensures forall i :: 1 <= i < |rows| ==> rows[i] == RowOf(t[i - 1])
  {
    [Header] + seq(|t|, i requires 0 <= i < |t| => RowOf(t[i]))
  }

  /** The generator's output for the kept airlines; the printed count is the size of the deduplicated
      dictionary, which is the number of table entries. */
  function Emit(kept: seq<Airline>): (r: Output)
    ensures |r.rows| == r.count + 1 && r.rows[0] == Header
    ensures r.count == |Keys(kept)|
  {
    var t := Table(kept);
    Output(Rows(t), |t|)
  }

  /** generate_airlines_csv.py from the lines of airlines.dat. */
  function Generate(lines: seq<string>): (r: Output)
    ensures |r.rows| == r.count + 1 && r.rows[0] == Header
    ensures r.count == |Keys(Kept(lines))|
  {
    Emit(Kept(lines))
  }

  /** Every data row is the last kept airline with that ICAO code. */
  lemma EmitRowIsLast(kept: seq<Airline>, i: nat)
    requires 1 <= i < |Emit(kept).rows|
    ensures var row := Emit(kept).rows[i];
      |row| == 3 && LastWith(kept, row[0]) == Some(Airline(row[0], row[1], row[2]))
  {
    var t := Table(kept);
    assert Emit(kept).rows[i] == RowOf(t[i - 1]);
    TableKeepsLast(kept, i - 1);
  }

  /** The ICAO codes strictly increase down the table, so none is written twice. */
  lemma EmitAscending(kept: seq<Airline>, i: nat, j: nat)
    requires 1 <= i < j < |Emit(kept).rows|
    ensures var rows := Emit(kept).rows; LexLess(rows[i][0], rows[j][0])
  {
    RowsAscending(Table(kept), i, j);
  }

  /** The rows of an ascending table have strictly increasing first columns. */
  lemma RowsAscending(t: seq<Airline>, i: nat, j: nat)
    requires Ascending(t) && 1 <= i < j <= |t|
    ensures LexLess(Rows(t)[i][0], Rows(t)[j][0])
  {
    AscendingPairwise(t, i - 1, j - 1);
    assert Rows(t)[i][0] == t[i - 1].icao && Rows(t)[j][0] == t[j - 1].icao;
  }

  /** Every kept ICAO code has a row. */
  lemma EmitCoversKept(kept: seq<Airline>, k: string)
    requires k in Keys(kept)
    ensures exists i :: 1 <= i < |Emit(kept).rows| && Emit(kept).rows[i][0] == k
  {
    var t := Table(kept);
    assert Emit(kept).rows == Rows(t);
    var p :| 0 <= p < |t| && t[p].icao == k;
    assert Rows(t)[p + 1][0] == k;
  }

  // ---------------------------------------------------------------------------
  // Loading the table (load_airline_db)
  // ---------------------------------------------------------------------------

  /** `field.strip().upper()`: the normalisation a callsign gets, so the loaded keys are the codes a
      normalised callsign is looked up by. */
  function Canonical(field: string): string {
    Callsign.Normalize(field)
  }

  /** A dict filled in order from key/value pairs: a later pair overwrites an earlier one with the
      same key. */
  function Assoc<K(==), V>(pairs: seq<(K, V)>): (r: map<K, V>)
    ensures forall i :: 0 <= i < |pairs| ==> pairs[i].0 in r
    ensures |r| <= |pairs|
    decreases |pairs|
  {
    if pairs == [] then map[]
    else
      var n := |pairs| - 1;
      assert forall i :: 0 <= i < n ==> pairs[..n][i] == pairs[i];
      Assoc(pairs[..n])[pairs[n].0 := pairs[n].1]
  }

  /** Every key of the dict comes from some pair. */
  lemma {:induction false} AssocKeysFromPairs<K, V>(pairs: seq<(K, V)>, k: K)
    requires k in Assoc(pairs)
    ensures exists i :: 0 <= i < |pairs| && pairs[i].0 == k
    decreases |pairs|
  {
    var n := |pairs| - 1;
    if k != pairs[n].0 {
      AssocKeysFromPairs(pairs[..n], k);
      var i :| 0 <= i < n && pairs[..n][i].0 == k;
      assert pairs[i].0 == k;
    }
  }

  /** The value of a pair no later pair overrides is what the dict holds for its key. */
  lemma {:induction false} AssocKeepsLast<K, V>(pairs: seq<(K, V)>, i: nat)
    requires i < |pairs|
    requires forall j :: i < j < |pairs| ==> pairs[j].0 != pairs[i].0
    ensures Assoc(pairs)[pairs[i].0] == pairs[i].1
    decreases |pairs|
  {
    var n := |pairs| - 1;
    if i < n {
      assert pairs[..n][i] == pairs[i];
      AssocKeepsLast(pairs[..n], i);
    }
  }

  /** `AIRLINE_DB` after reading the table's data rows, given as (icao, iata) column pairs: both are
      stripped and upper-cased, and a later row overwrites an earlier one with the same code. */
  function LoadRegistry(rows: seq<(string, string)>): (r: map<string, string>)
    ensures forall i :: 0 <= i < |rows| ==> Canonical(rows[i].0) in r
    ensures forall k :: k in r ==> exists i :: 0 <= i < |rows| && Canonical(rows[i].0) == k
    ensures |r| <= |rows|
  {
    var pairs := seq(|rows|, i requires 0 <= i < |rows| => (Canonical(rows[i].0), Canonical(rows[i].1)));
    assert forall i :: 0 <= i < |rows| ==> pairs[i].0 == Canonical(rows[i].0);
    forall k | k in Assoc(pairs) ensures exists i :: 0 <= i < |rows| && Canonical(rows[i].0) == k {
      AssocKeysFromPairs(pairs, k);
    }
    Assoc(pairs)
  }

  /** A row no later row overrides is what the registry holds for its code. */
  lemma LoadRegistryKeepsLast(rows: seq<(string, string)>, i: nat)
    requires i < |rows|
    requires forall j :: i < j < |rows| ==> Canonical(rows[j].0) != Canonical(rows[i].0)
    ensures LoadRegistry(rows)[Canonical(rows[i].0)] == Canonical(rows[i].1)
  {
    var pairs := seq(|rows|, i requires 0 <= i < |rows| => (Canonical(rows[i].0), Canonical(rows[i].1)));
    AssocKeepsLast(pairs, i);
  }

  /** The (icao, iata) columns of the generated table, as the server's loader reads them back. */
  function TablePairs(kept: seq<Airline>): (r: seq<(string, string)>)
    ensures |r| == |Table(kept)|
    ensures forall i :: 0 <= i < |r| ==> r[i] == (Table(kept)[i].icao, Table(kept)[i].iata)
  {
    var t := Table(kept);
    seq(|t|, i requires 0 <= i < |t| => (t[i].icao, t[i].iata))
  }

  /** End to end: when the kept codes are already stripped and upper-case, loading the generated table
      maps every kept ICAO code to the IATA code of the last airline with that code. */
  lemma LoadGeneratedTable(kept: seq<Airline>, k: string)
    requires forall i :: 0 <= i < |kept| ==> Canonical(kept[i].icao) == kept[i].icao && Canonical(kept[i].iata) == kept[i].iata
    requires k in Keys(kept)
    ensures var registry := LoadRegistry(TablePairs(kept));
      LastWith(kept, k).Some? && k in registry && registry[k] == LastWith(kept, k).value.iata
  {
    var t := Table(kept);
    var pairs := TablePairs(kept);
    assert k in Keys(t);
    var p :| 0 <= p < |t| && t[p].icao == k;
    TableKeepsLast(kept, p);
    forall j | p < j < |pairs|
      ensures Canonical(pairs[j].0) != Canonical(pairs[p].0)
    {
      TableKeepsLast(kept, j);
      AscendingPairwise(t, p, j);
      LexLessIrreflexive(t[p].icao);
    }
    LoadRegistryKeepsLast(pairs, p);
  }
}

=== FILE: callsign.dfy ===
/** Callsign helpers of the flight server (testing/app.py): normalisation, the ICAO-to-IATA
    rewrite used for the AviationStack lookup, and the `?callsigns=` query split. */
module Callsign {
  import opened Strings
  import opened Seqs

  /** `normalize_callsign`: the empty string stays empty; anything else is stripped of surrounding
      whitespace and upper-cased. */
  function Normalize(raw: string): (r: string)
    ensures raw == [] ==> r == []
    ensures |r| <= |raw|
    ensures r == [] || (!IsPySpace(r[0]) && !IsPySpace(r[|r| - 1]))
    ensures forall k :: 0 <= k < |r| ==> !IsAsciiLower(r[k])
  {
    if raw == [] then [] else Upper(Strip(raw, IsPySpace))
  }

  /** A non-empty callsign normalises to the upper-cased middle of it that starts after the leading
      whitespace (`i` characters of it) and is followed only by whitespace. */
  lemma NormalizeIsUpperMiddle(raw: string, i: int)
    requires raw != [] && i == |raw| - |StripLeft(raw, IsPySpace)|
    ensures 0 <= i && i + |Normalize(raw)| <= |raw| && Normalize(raw) == Upper(raw[i..i + |Normalize(raw)|])
    ensures AllIn(raw[..i], IsPySpace) && AllIn(raw[i + |Normalize(raw)|..], IsPySpace)
  {
    UpperStripIsUpperMiddle(raw, IsPySpace, Normalize(raw), i);
  }

  /** Normalising twice is normalising once. */
  lemma NormalizeIdempotent(raw: string)
    ensures Normalize(Normalize(raw)) == Normalize(raw)
  {
    NormalizeFixesNormalized(Normalize(raw));
  }

  /** A string with no surrounding whitespace and no lower-case letter is already normalised. */
  lemma NormalizeFixesNormalized(n: string)
    requires n == [] || (!IsPySpace(n[0]) && !IsPySpace(n[|n| - 1]))
    requires forall k :: 0 <= k < |n| ==> !IsAsciiLower(n[k])
    ensures Normalize(n) == n
  {
    if n != [] {
      assert StripLeft(n, IsPySpace) == n;
      assert StripRight(n, IsPySpace) == n;
      assert Upper(n) == n;
    }
  }

  /** The alphanumeric characters of `s`, in order (`"".join(ch for ch in s if ch.isalnum())`). */
  function Clean(s: string): (r: string)
    ensures |r| <= |s|
    ensures forall k :: 0 <= k < |r| ==> IsAlnum(r[k])
    ensures forall c :: c in r ==> c in s
    ensures (forall k :: 0 <= k < |s| ==> IsAlnum(s[k])) ==> r == s
  {
    if s == [] then []
    else (if IsAlnum(s[0]) then [s[0]] else []) + Clean(s[1..])
  }

  /** Cleaning works piece by piece. */
  lemma {:induction false} CleanConcat(a: string, b: string)
    ensures Clean(a + b) == Clean(a) + Clean(b)
    decreases |a|
  {
    if a == [] {
      assert a + b == b;
    } else {
      HeadTailConcat(a, b);
      CleanConcat(a[1..], b);
      var head := if IsAlnum(a[0]) then [a[0]] else [];
      assert head + (Clean(a[1..]) + Clean(b)) == (head + Clean(a[1..])) + Clean(b);
    }
  }

  /** A single character is kept exactly when it is alphanumeric; with `CleanConcat` this pins
      `Clean` down on every string. */
  lemma CleanChar(c: char)
    ensures Clean([c]) == if IsAlnum(c) then [c] else []
  {
  }

  /** Two letters followed only by digits, at least one: already an IATA flight code. */
  predicate IataShaped(c: string) {
    |c| >= 3 && IsAlphaStr(c[..2]) && IsDigitStr(c[2..])
  }

  /** Three letters followed by anything that contains a digit: an ICAO airline designator and flight number. */
  predicate IcaoShaped(c: string) {
    |c| >= 4 && IsAlphaStr(c[..3]) && HasDigit(c[3..])
  }

  /** The registry knows the designator and maps it to a non-empty (truthy) code. */
  predicate RegistryHit(registry: map<string, string>, designator: string) {
    designator in registry && registry[designator] != []
  }

  /** `callsign_to_iata`: the flight code to ask AviationStack about. `registry` is the loaded
      ICAO-to-IATA airline table (`AIRLINE_DB`). */
  function ToIata(callsign: string, registry: map<string, string>): (r: string)
    ensures callsign == [] ==> r == []
  {
    var cs := Normalize(callsign);
    if cs == [] then cs
    else
      var clean := Clean(cs);
      if IataShaped(clean) then clean
      else if IcaoShaped(clean) then
        var prefix3 := clean[..3];
        var rest := clean[3..];
        if RegistryHit(registry, prefix3) then registry[prefix3] + rest
        else
          var iata2 := prefix3[..2];
          if IsAlphaStr(iata2) then iata2 + rest else clean
      else clean
  }

  /** The conversion by cases of the cleaned callsign `c`: an IATA-shaped code is kept; an ICAO-shaped
      one has its designator replaced by the registry's code or, failing that, by its first two
      letters; anything else is returned cleaned. */
  lemma ToIataCases(callsign: string, registry: map<string, string>)
    ensures var c := Clean(Normalize(callsign)); var r := ToIata(callsign, registry);
      && (IataShaped(c) ==> r == c)
      && (!IataShaped(c) && IcaoShaped(c) && RegistryHit(registry, c[..3]) ==> r == registry[c[..3]] + c[3..])
      && (!IataShaped(c) && IcaoShaped(c) && !RegistryHit(registry, c[..3]) ==> r == c[..2] + c[3..])
      && (!IataShaped(c) && !IcaoShaped(c) ==> r == c)
  {
    var c := Clean(Normalize(callsign));
    if IcaoShaped(c) {
      assert IsAlphaStr(c[..3][..2]) by { assert c[..3][..2] == c[..2]; }
    }
  }

  /** A callsign that is already a normalised IATA flight code is returned unchanged, whatever the registry. */
  lemma ToIataFixesIataCodes(code: string, registry: map<string, string>)
    requires IataShaped(code)
    requires forall k :: 0 <= k < |code| ==> !IsAsciiLower(code[k])
    ensures ToIata(code, registry) == code
  {
    assert forall k :: 0 <= k < |code| ==> IsAlnum(code[k]) by {
      forall k | 0 <= k < |code| ensures IsAlnum(code[k]) {
        if k < 2 { assert code[..2][k] == code[k]; } else { assert code[2..][k - 2] == code[k]; }
      }
    }
    NormalizeFixesNormalized(code);
    assert Clean(code) == code;
    ToIataCases(code, registry);
  }

  /** Without a registry entry, an ICAO callsign loses its third letter: the flight number is kept
      and the first two letters become the airline code (AAL8 becomes AA8). When the flight number
      is all digits the result is itself an IATA code, so converting again changes nothing. */
  lemma {:induction false} RegistryMissDropsThirdLetter(callsign: string, registry: map<string, string>)
    requires var c := Clean(Normalize(callsign)); IcaoShaped(c) && !RegistryHit(registry, c[..3])
    ensures var c := Clean(Normalize(callsign));
      var r := ToIata(callsign, registry);
      IsDigitStr(c[3..]) ==> r == c[..2] + c[3..] && |r| == |c| - 1 && ToIata(r, registry) == r
  {
    var c := Clean(Normalize(callsign));
    var r := ToIata(callsign, registry);
    ToIataCases(callsign, registry);
    if IsDigitStr(c[3..]) {
      assert !IsDigit(c[2]) by { assert c[..3][2] == c[2]; }
      assert !IataShaped(c) by { assert c[2..][0] == c[2]; }
      assert r == c[..2] + c[3..];
      assert IataShaped(r) by {
        assert r[..2] == c[..2];
        assert r[2..] == c[3..];
      }
      assert forall k :: 0 <= k < |r| ==> !IsAsciiLower(r[k]) by {
        forall k | 0 <= k < |r| ensures !IsAsciiLower(r[k]) {
          if k < 2 { assert r[k] == c[k]; } else { assert r[k] == c[k + 1]; }
          assert c[if k < 2 then k else k + 1] in Normalize(callsign);
        }
      }
      ToIataFixesIataCodes(r, registry);
    }
  }

  /** An upper-case ICAO callsign (three letters, then a flight number containing a digit) becomes the
      registry's code for its designator, or failing that its first two letters, followed by the flight number. */
  lemma IcaoCallsignConversion(c: string, registry: map<string, string>)
    requires forall k :: 0 <= k < |c| ==> IsAsciiUpper(c[k]) || IsDigit(c[k])
    requires IcaoShaped(c)
    ensures ToIata(c, registry) == (if RegistryHit(registry, c[..3]) then registry[c[..3]] else c[..2]) + c[3..]
  {
    assert !IataShaped(c) by { assert c[..3][2] == c[2] == c[2..][0]; }
    assert Clean(Normalize(c)) == c by {
      NormalizeFixesNormalized(c);
      assert forall k :: 0 <= k < |c| ==> IsAlnum(c[k]);
    }
    ToIataCases(c, registry);
  }

  // ---------------------------------------------------------------------------
  // The `?callsigns=` query
  // ---------------------------------------------------------------------------

  /** The pieces stripped of `ws`, with the empty ones dropped, in order (the list comprehension of the
      query split). */
  function StrippedTokens(pieces: seq<string>, ws: char -> bool): (r: seq<string>)
    ensures |r| <= |pieces|
    ensures forall i :: 0 <= i < |r| ==> r[i] != [] && !ws(r[i][0]) && !ws(r[i][|r[i]| - 1])
  {
    if pieces == [] then []
    else
      var t := Strip(pieces[0], ws);
      (if t != [] then [t] else []) + StrippedTokens(pieces[1..], ws)
  }

  /** The token filter works piece by piece. */
  lemma {:induction false} StrippedTokensConcat(p: seq<string>, q: seq<string>, ws: char -> bool)
    ensures StrippedTokens(p + q, ws) == StrippedTokens(p, ws) + StrippedTokens(q, ws)
    decreases |p|
  {
    if p == [] {
      assert p + q == q;
    } else {
      var t := Strip(p[0], ws);
      var head := if t != [] then [t] else [];
      HeadTailConcat(p, q);
      StrippedTokensConcat(p[1..], q, ws);
      assert head + (StrippedTokens(p[1..], ws) + StrippedTokens(q, ws))
          == (head + StrippedTokens(p[1..], ws)) + StrippedTokens(q, ws);
    }
  }

  /** A character no piece contains is in no token. */
  lemma {:induction false} StrippedTokensAvoid(pieces: seq<string>, ws: char -> bool, c: char)
    requires forall j :: 0 <= j < |pieces| ==> c !in pieces[j]
    ensures forall i :: 0 <= i < |StrippedTokens(pieces, ws)| ==> c !in StrippedTokens(pieces, ws)[i]
    decreases |pieces|
  {
    if pieces != [] {
      StripAvoids(pieces[0], ws, c);
      StrippedTokensAvoid(pieces[1..], ws, c);
    }
  }

  /** The callsigns named by the query string: spaces and commas both separate, surrounding whitespace
      is dropped and empty tokens are skipped. */
  function ParseCallsigns(q: string): (r: seq<string>)
    ensures q == [] ==> r == []
    ensures forall i :: 0 <= i < |r| ==> r[i] != [] && ',' !in r[i] && ' ' !in r[i]
    ensures forall i :: 0 <= i < |r| ==> !IsPySpace(r[i][0]) && !IsPySpace(r[i][|r[i]| - 1])
  {
    if q == [] then []
    else
      var joined := ReplaceChar(q, ' ', ',');
      var pieces := Split(joined, ',');
      assert forall j :: 0 <= j < |pieces| ==> ' ' !in pieces[j] by {
        JoinSplit(joined, ',');
        forall j | 0 <= j < |pieces| ensures ' ' !in pieces[j] {
          PieceOfJoin(pieces, ',', j);
        }
      }
      StrippedTokensAvoid(pieces, IsPySpace, ',');
      StrippedTokensAvoid(pieces, IsPySpace, ' ');
      StrippedTokens(pieces, IsPySpace)
  }

  /** The query split, written without its empty-query shortcut (the shortcut gives the same answer). */
  lemma ParseCallsignsUniform(q: string)
    ensures ParseCallsigns(q) == StrippedTokens(Split(ReplaceChar(q, ' ', ','), ','), IsPySpace)
  {
    if q == [] {
      assert Split(ReplaceChar(q, ' ', ','), ',') == [[]];
    }
  }

  /** A comma or a space in the query separates it: the callsigns are those of the part before it,
      then those of the part after it. */
  lemma ParseCallsignsAtSeparator(a: string, sep: char, b: string)
    requires sep == ',' || sep == ' '
    ensures ParseCallsigns(a + [sep] + b) == ParseCallsigns(a) + ParseCallsigns(b)
  {
    ParseCallsignsUniform(a + [sep] + b);
    ParseCallsignsUniform(a);
    ParseCallsignsUniform(b);
    var ra := ReplaceChar(a, ' ', ',');
    var rb := ReplaceChar(b, ' ', ',');
    assert ReplaceChar(a + [sep] + b, ' ', ',') == ra + [','] + rb by {
      ReplaceCharConcat(a + [sep], b, ' ', ',');
      ReplaceCharConcat(a, [sep], ' ', ',');
    }
    SplitAtSeparator(ra, ',', rb);
    StrippedTokensConcat(Split(ra, ','), Split(rb, ','), IsPySpace);
  }

  /** A query without commas or spaces names at most one callsign: the query stripped of surrounding
      whitespace, when that is not empty. */
  lemma ParseCallsignsSingle(q: string)
    requires ',' !in q && ' ' !in q
    ensures var t := Strip(q, IsPySpace); ParseCallsigns(q) == if t == [] then [] else [t]
  {
    ParseCallsignsUniform(q);
    assert ReplaceChar(q, ' ', ',') == q;
    SplitWithoutSeparator(q, ',');
    assert StrippedTokens([q], IsPySpace) == (if Strip(q, IsPySpace) == [] then [] else [Strip(q, IsPySpace)]) + StrippedTokens([], IsPySpace);
  }

  /** Every character of a piece appears in the joined string. */
  lemma {:induction false} PieceOfJoin(pieces: seq<string>, sep: char, j: nat)
    requires |pieces| >= 1 && j < |pieces|
    ensures forall c :: c in pieces[j] ==> c in Join(pieces, sep)
    decreases j
  {
    if j > 0 {
      PieceOfJoin(pieces[1..], sep, j - 1);
    }
  }

  /** A character other than the separator that no piece contains is not in the join. */
  lemma {:induction false} JoinAvoids(pieces: seq<string>, sep: char, c: char)
    requires |pieces| >= 1 && c != sep
    requires forall i :: 0 <= i < |pieces| ==> c !in pieces[i]
    ensures c !in Join(pieces, sep)
    decreases |pieces|
  {
    if |pieces| > 1 {
      JoinAvoids(pieces[1..], sep, c);
    }
  }

  /** Non-empty pieces that stripping leaves alone come through the token filter unchanged. */
  lemma {:induction false} StrippedTokensOfTokens(toks: seq<string>, ws: char -> bool)
    requires forall i :: 0 <= i < |toks| ==> toks[i] != [] && Strip(toks[i], ws) == toks[i]
    ensures StrippedTokens(toks, ws) == toks
    decreases |toks|
  {
    if toks != [] {
      StrippedTokensOfTokens(toks[1..], ws);
    }
  }

  /** Round trip: the query `a,b,c` built from well-formed callsign tokens parses back to exactly
      those tokens, in order. */
  lemma ParseCallsignsOfJoin(toks: seq<string>)
    requires |toks| >= 1
    requires forall i :: 0 <= i < |toks| ==> toks[i] != [] && ',' !in toks[i] && ' ' !in toks[i]
    requires forall i :: 0 <= i < |toks| ==> Strip(toks[i], IsPySpace) == toks[i]
    ensures ParseCallsigns(Join(toks, ',')) == toks
  {
    var q := Join(toks, ',');
    assert q != [] by { PieceOfJoin(toks, ',', 0); assert toks[0][0] in toks[0]; }
    JoinAvoids(toks, ',', ' ');
    assert ReplaceChar(q, ' ', ',') == q;
    SplitJoin(toks, ',');
    StrippedTokensOfTokens(toks, IsPySpace);
  }
}

=== FILE: dashboard.dfy ===
/** The page script of the dashboard (testing/static/main.js): the status a flight card shows after the
    user focuses it, and the summary counters tallied from the cards' status pills. The DOM is modelled
    as the list of flight cards in document order, each with its callsign and the text of its status
    pill, if it has one. */
module Dashboard {
  import opened Wrappers
  import opened Strings
  import opened Seqs

  // ---------------------------------------------------------------------------
  // Status derivation (focusFlight)
  // ---------------------------------------------------------------------------

  /** The reported status says nothing: missing, empty, or "unknown". */
  predicate Uninformative(reported: Option<string>) {
    reported.None? || reported.value == [] || reported.value == "unknown"
  }

  /** `focusFlight`'s status: the reported `status`, "unknown" when it is missing or empty, and
      "active" instead of "unknown" when the flight has a live position. */
  function DeriveStatus(reported: Option<string>, live: bool): (r: string)
    ensures r != []
    ensures r == "active" <==> reported == Some("active") || (live && Uninformative(reported))
    ensures r == "unknown" <==> !live && Uninformative(reported)
    ensures !Uninformative(reported) ==> r == reported.value
  {
    var status := if reported.Some? && reported.value != [] then reported.value else "unknown";
    if live && (status == [] || status == "unknown") then "active" else status
  }

  /** Deriving again from a derived status changes nothing. */
  lemma DeriveStatusIdempotent(reported: Option<string>, live: bool)
    ensures DeriveStatus(Some(DeriveStatus(reported, live)), live) == DeriveStatus(reported, live)
  {
  }

  // ---------------------------------------------------------------------------
  // Cards and pills
  // ---------------------------------------------------------------------------

  /** A flight card: its trip's callsign (the `status-<callsign>` slot) and the text content of its
      status pill, if one was ever rendered into the slot. */
  datatype Card = Card(callsign: string, pill: Option<string>)

  /** The whitespace the pill's template puts before and after the upper-cased status. */
  const PillLead: string := "\n        "
  const PillTrail: string := "\n      "

  /** The text content of the pill `focusFlight` renders for `status`: the upper-cased status padded
      with whitespace only, so trimming the pill trims the upper-cased status. */
  function PillText(status: string): (r: string)
    ensures |r| == |status| + |PillLead| + |PillTrail|
    ensures Strip(r, IsJsSpace) == Strip(Upper(status), IsJsSpace)
  {
    assert AllIn(PillLead, IsJsSpace) by {
      assert forall k :: 0 <= k < |PillLead| ==> PillLead[k] == '\n' || PillLead[k] == ' ';
    }
    assert AllIn(PillTrail, IsJsSpace) by {
      assert forall k :: 0 <= k < |PillTrail| ==> PillTrail[k] == '\n' || PillTrail[k] == ' ';
    }
    StripSurrounded(PillLead, Upper(status), PillTrail, IsJsSpace);
    PillLead + Upper(status) + PillTrail
  }

  /** The counter buckets of the summary bar. */
  datatype Bucket = Active | Scheduled | Landed | Unknown

  /** The bucket a trimmed, lower-cased pill text falls in. */
  function BucketOf(status: string): (b: Bucket)
    ensures b == Active <==> status == "active"
    ensures b == Scheduled <==> status == "scheduled"
    ensures b == Landed <==> status == "landed"
  {
    if status == "active" then Active
    else if status == "scheduled" then Scheduled
    else if status == "landed" then Landed
    else Unknown
  }

  /** `updateSummaryCounters`' reading of one card: no pill counts as unknown; otherwise the pill's
      text, trimmed and lower-cased, picks the bucket. */
  function Classify(card: Card): (b: Bucket)
    ensures card.pill.None? ==> b == Unknown
    ensures card.pill.Some? ==> var text := Lower(Strip(card.pill.value, IsJsSpace));
      && (b == Active <==> text == "active")
      && (b == Scheduled <==> text == "scheduled")
      && (b == Landed <==> text == "landed")
  {
    match card.pill
    case None => Unknown
    case Some(text) => BucketOf(Lower(Strip(text, IsJsSpace)))
  }

  /** Upper-casing keeps whitespace whitespace and everything else not whitespace. */
  lemma UpperCharKeepsSpace(c: char)
    ensures IsJsSpace(UpperChar(c)) <==> IsJsSpace(c)
  {
  }

  /** Upper-casing commutes with dropping leading whitespace. */
  lemma {:induction false} StripLeftUpper(s: string)
    ensures StripLeft(Upper(s), IsJsSpace) == Upper(StripLeft(s, IsJsSpace))
    decreases |s|
  {
    if |s| > 0 {
      UpperCharKeepsSpace(s[0]);
      if IsJsSpace(s[0]) {
        assert Upper(s)[1..] == Upper(s[1..]);
        StripLeftUpper(s[1..]);
      }
    }
  }

  /** Upper-casing commutes with dropping trailing whitespace. */
  lemma {:induction false} StripRightUpper(s: string)
    ensures StripRight(Upper(s), IsJsSpace) == Upper(StripRight(s, IsJsSpace))
    decreases |s|
  {
    if |s| > 0 {
      UpperCharKeepsSpace(s[|s| - 1]);
      if IsJsSpace(s[|s| - 1]) {
        assert Upper(s)[..|s| - 1] == Upper(s[..|s| - 1]);
        StripRightUpper(s[..|s| - 1]);
      }
    }
  }

  /** Lower-casing an upper-cased string is lower-casing it. */
  lemma LowerUpper(s: string)
    ensures Lower(Upper(s)) == Lower(s)
  {
    assert forall k :: 0 <= k < |s| ==> LowerChar(UpperChar(s[k])) == LowerChar(s[k]);
  }

  /** A rendered pill is counted in the bucket of its status, trimmed and lower-cased: the pill's padding
      and upper-casing do not affect the tally. */
  lemma PillClassifiesAsStatus(callsign: string, status: string)
    ensures Classify(Card(callsign, Some(PillText(status)))) == BucketOf(Lower(Strip(status, IsJsSpace)))
  {
    StripLeftUpper(status);
    StripRightUpper(StripLeft(status, IsJsSpace));
    LowerUpper(Strip(status, IsJsSpace));
  }

  // ---------------------------------------------------------------------------
  // Focusing a flight
  // ---------------------------------------------------------------------------

  /** What `/api/flight/<callsign>` returned about a flight: its `status`, and whether it has a `live` position. */
  datatype FlightInfo = FlightInfo(status: Option<string>, live: bool)

  /** The index of the first card, at or after `from`, for `callsign` (`getElementById` finds the first
      element with the slot's id). */
  function FirstCard(cards: seq<Card>, callsign: string, from: nat): (r: Option<nat>)
    requires from <= |cards|
    ensures r.Some? ==> from <= r.value < |cards| && cards[r.value].callsign == callsign
    ensures r.Some? ==> forall j :: from <= j < r.value ==> cards[j].callsign != callsign
    ensures r.None? ==> forall j :: from <= j < |cards| ==> cards[j].callsign != callsign
    decreases |cards| - from
  {
    if from == |cards| then None
    else if cards[from].callsign == callsign then Some(from)
    else FirstCard(cards, callsign, from + 1)
  }

  /** The cards after `focusFlight(callsign)`: without flight data nothing changes; otherwise the pill of
      the first card for `callsign`, if there is one, shows the derived status. */
  function FocusFlight(cards: seq<Card>, callsign: string, flight: Option<FlightInfo>): (r: seq<Card>)
    ensures |r| == |cards|
    ensures forall i :: 0 <= i < |cards| ==> r[i].callsign == cards[i].callsign
    ensures flight.None? ==> r == cards
    ensures forall i :: 0 <= i < |cards| && r[i] != cards[i] ==> FirstCard(cards, callsign, 0) == Some(i)
    ensures flight.Some? && FirstCard(cards, callsign, 0).Some? ==>
      var i := FirstCard(cards, callsign, 0).value;
      r[i].pill == Some(PillText(DeriveStatus(flight.value.status, flight.value.live)))
  {
    match flight
    case None => cards
    case Some(info) =>
      match FirstCard(cards, callsign, 0)
      case None => cards
      case Some(i) => cards[i := cards[i].(pill := Some(PillText(DeriveStatus(info.status, info.live))))]
  }

  /** A focused flight with a live position and no informative status is counted as active. */
  lemma FocusedLiveFlightCountsActive(cards: seq<Card>, callsign: string, status: Option<string>)
    requires FirstCard(cards, callsign, 0).Some?
    requires Uninformative(status)
    ensures Classify(FocusFlight(cards, callsign, Some(FlightInfo(status, true)))[FirstCard(cards, callsign, 0).value]) == Active
  {
    PillClassifiesAsStatus(callsign, "active");
    ActiveReadsBack();
  }

  /** The pill of "active" reads back as "active". */
  lemma ActiveReadsBack()
    ensures Lower(Strip("active", IsJsSpace)) == "active"
  {
    assert "active" == ['a', 'c', 't', 'i', 'v', 'e'];
    PlainStatus("active");
  }

  /** A status of lower-case letters reads back unchanged from its pill. */
  lemma PlainStatus(s: string)
    requires forall k :: 0 <= k < |s| ==> IsAsciiLower(s[k])
    ensures Lower(Strip(s, IsJsSpace)) == s
  {
    if s != [] {
      assert !IsJsSpace(s[0]) && !IsJsSpace(s[|s| - 1]);
      assert StripLeft(s, IsJsSpace) == s;
      assert StripRight(s, IsJsSpace) == s;
    }
  }

  // ---------------------------------------------------------------------------
  // Summary counters (updateSummaryCounters)
  // ---------------------------------------------------------------------------

  /** How many of the cards fall in bucket `b`. */
  function Count(cards: seq<Card>, b: Bucket): (n: nat)
    ensures n <= |cards|
  {
    if cards == [] then 0
    else Count(cards[..|cards| - 1], b) + (if Classify(cards[|cards| - 1]) == b then 1 else 0)
  }

  /** Every card is counted in exactly one bucket. */
  lemma {:induction false} CountsPartition(cards: seq<Card>)
    ensures Count(cards, Active) + Count(cards, Scheduled) + Count(cards, Landed) + Count(cards, Unknown) == |cards|
  {
    if cards != [] {
      CountsPartition(cards[..|cards| - 1]);
    }
  }

  /** Replacing one card moves it from its old bucket to its new one and leaves the other counts alone. */
  lemma {:induction false} CountUpdate(cards: seq<Card>, i: nat, c: Card, b: Bucket)
    requires i < |cards|
    ensures Count(cards[i := c], b) + (if Classify(cards[i]) == b then 1 else 0)
         == Count(cards, b) + (if Classify(c) == b then 1 else 0)
    decreases |cards|
  {
    var n := |cards| - 1;
    var front := cards[..n];
    var here := if Classify(cards[n]) == b then 1 else 0;
    SplitLast(cards);
    CountSnoc(front, cards[n], b);
    if i < n {
      UpdateFront(cards, i, c);
      CountSnoc(front[i := c], cards[n], b);
      CountUpdate(front, i, c, b);
    } else {
      UpdateLast(cards, c);
      CountSnoc(front, c, b);
    }
  }

  /** Appending a card adds one to its own bucket only. */
  lemma CountSnoc(front: seq<Card>, last: Card, b: Bucket)
    ensures Count(front + [last], b) == Count(front, b) + (if Classify(last) == b then 1 else 0)
  {
    assert (front + [last])[..|front|] == front;
  }

  /** The five numbers of the summary bar. */
  datatype Summary = Summary(total: nat, active: nat, scheduled: nat, landed: nat, unknown: nat)

  /** `updateSummaryCounters`: one pass over the cards in document order. */
  method UpdateSummaryCounters(cards: seq<Card>) returns (s: Summary)
    ensures s.total == |cards|
    ensures s.active == Count(cards, Active) && s.scheduled == Count(cards, Scheduled)
    ensures s.landed == Count(cards, Landed) && s.unknown == Count(cards, Unknown)
    ensures s.active + s.scheduled + s.landed + s.unknown == s.total
  {
    var active, scheduled, landed, unknown := 0, 0, 0, 0;
    for i := 0 to |cards|
      invariant active == Count(cards[..i], Active) && scheduled == Count(cards[..i], Scheduled)
      invariant landed == Count(cards[..i], Landed) && unknown == Count(cards[..i], Unknown)
      invariant active + scheduled + landed + unknown == i
    {
      assert cards[..i + 1][..i] == cards[..i];
      match Classify(cards[i])
      case Active => active := active + 1;
      case Scheduled => scheduled := scheduled + 1;
      case Landed => landed := landed + 1;
      case Unknown => unknown := unknown + 1;
    }
    assert cards[..|cards|] == cards;
    s := Summary(|cards|, active, scheduled, landed, unknown);
  }

  /** Focusing a flight and tallying again changes the counters by at most the one re-rendered card:
      the total stays, and each bucket gains or loses at most one. */
  lemma FocusMovesAtMostOneCard(cards: seq<Card>, callsign: string, flight: Option<FlightInfo>, b: Bucket)
    ensures var after := FocusFlight(cards, callsign, flight);
      Count(cards, b) - 1 <= Count(after, b) <= Count(cards, b) + 1
  {
    var after := FocusFlight(cards, callsign, flight);
    match FirstCard(cards, callsign, 0)
    case None =>
    case Some(i) =>
      if flight.Some? {
        CountUpdate(cards, i, after[i], b);
        assert after == cards[i := after[i]];
      }
  }
}

=== FILE: flightsapi.dfy ===
/** The `/api/flights` route of the flight server (testing/app.py): for every callsign of the query it
    combines the OpenSky position, the AviationStack record and the recorded history into one flight
    entry, and derives the entry's status. The OpenSky snapshot, the AviationStack service and the
    clock are parameters. */
module FlightsApi {
  import opened Wrappers
  import opened Strings
  import opened Callsign
  import opened OpenSky
  import opened History

  // ---------------------------------------------------------------------------
  // AviationStack
  // ---------------------------------------------------------------------------

  /** One AviationStack flight object, as far as the server reads it: whether it has no fields at all
      (an empty object is falsy) and its `flight_status` (None when missing or null). */
  datatype AviationRecord = AviationRecord(empty: bool, flightStatus: Option<string>)

  /** Python truthiness of the flight object. */
  predicate Truthy(rec: AviationRecord) {
    !rec.empty
  }

  /** The two ways the server asks AviationStack about a flight code. */
  datatype QueryKey = FlightIata | FlightIcao

  /** An AviationStack answer: the request failed (network error, HTTP error, bad JSON), or the
      `data` list it returned (a missing or null list reads as empty). */
  datatype Response = Failure | Data(records: seq<AviationRecord>)

  /** `fetch_aviationstack_for_iata`'s pair: the flight object, or an error tag. */
  datatype Fetched = Fetched(data: Option<AviationRecord>, error: Option<string>)

  /** The error tags the lookup can produce. */
  const ErrorTags: set<string> := {"no_api_key", "no_iata", "error", "no_data"}

  /** `fetch_aviationstack_for_iata`: `hasKey` says whether an API key is configured and `query` stands
      for one HTTP request. The flight code is tried as `flight_iata` first and, when that returns no
      record, as `flight_icao`; any failed request ends the lookup with "error". */
  function FetchAviation(hasKey: bool, iata: string, query: (QueryKey, string) -> Response): (r: Fetched)
    ensures r.data.Some? <==> r.error.None?
    ensures r.error.Some? ==> r.error.value in ErrorTags
    ensures !hasKey ==> r.error == Some("no_api_key")
    ensures hasKey && iata == [] ==> r.error == Some("no_iata")
    ensures r.data.Some? ==>
      || (query(FlightIata, iata).Data? && query(FlightIata, iata).records != []
          && r.data.value == query(FlightIata, iata).records[0])
      || (query(FlightIata, iata) == Data([]) && query(FlightIcao, iata).Data?
          && query(FlightIcao, iata).records != [] && r.data.value == query(FlightIcao, iata).records[0])
    ensures hasKey && iata != [] && query(FlightIata, iata).Data? && query(FlightIata, iata).records != [] ==>
      r.data == Some(query(FlightIata, iata).records[0])
    ensures hasKey && iata != [] && query(FlightIata, iata) == Data([])
            && query(FlightIcao, iata).Data? && query(FlightIcao, iata).records != [] ==>
      r.data == Some(query(FlightIcao, iata).records[0])
    ensures r.error == Some("no_data") <==>
      hasKey && iata != [] && query(FlightIata, iata) == Data([]) && query(FlightIcao, iata) == Data([])
    ensures r.error == Some("error") <==>
      hasKey && iata != [] &&
      (query(FlightIata, iata).Failure? || (query(FlightIata, iata) == Data([]) && query(FlightIcao, iata).Failure?))
  {
    if !hasKey then Fetched(None, Some("no_api_key"))
    else if iata == [] then Fetched(None, Some("no_iata"))
    else
      match query(FlightIata, iata)
      case Failure => Fetched(None, Some("error"))
      case Data(data) =>
        if |data| > 0 then Fetched(Some(data[0]), None)
        else
          match query(FlightIcao, iata)
          case Failure => Fetched(None, Some("error"))
          case Data(data2) =>
            if |data2| > 0 then Fetched(Some(data2[0]), None)
            else Fetched(None, Some("no_data"))
  }

  /** The lookup asks only what it needs: without a key or a code it asks nothing, and the
      `flight_icao` answer matters only when the `flight_iata` answer came back empty. */
  lemma FetchAviationAsksOnlyWhatItNeeds(hasKey: bool, iata: string, q1: (QueryKey, string) -> Response,
                                         q2: (QueryKey, string) -> Response)
    requires hasKey && iata != [] ==> q1(FlightIata, iata) == q2(FlightIata, iata)
    requires hasKey && iata != [] && q1(FlightIata, iata) == Data([]) ==> q1(FlightIcao, iata) == q2(FlightIcao, iata)
    ensures FetchAviation(hasKey, iata, q1) == FetchAviation(hasKey, iata, q2)
  {
  }

  // ---------------------------------------------------------------------------
  // Status
  // ---------------------------------------------------------------------------

  /** The statuses the server reports. */
  const Statuses: set<string> := {"unknown", "live", "scheduled", "landed"}

  /** OpenSky places the flight above 1000 (the altitude is present and non-zero, and exceeds 1000). */
  predicate Airborne(fix: Option<Fix>) {
    fix.Some? && fix.value.altitude.Some? && fix.value.altitude.value > 1000
  }

  /** AviationStack reports the flight scheduled or landed. */
  predicate ReportsScheduledOrLanded(aviation: Option<AviationRecord>) {
    aviation.Some? && (aviation.value.flightStatus == Some("scheduled") || aviation.value.flightStatus == Some("landed"))
  }

  /** The status derivation of `api_flights`: "unknown", raised to "live" by an OpenSky altitude above
      1000, then replaced by AviationStack's `flight_status` when that is "scheduled" or "landed".
      `aviation` is the copied record (present only when the object was truthy). */
  function StatusOf(fix: Option<Fix>, aviation: Option<AviationRecord>): (r: string)
    ensures r in Statuses
    ensures ReportsScheduledOrLanded(aviation) ==> Some(r) == aviation.value.flightStatus
    ensures r == "live" <==> Airborne(fix) && !ReportsScheduledOrLanded(aviation)
    ensures r == "unknown" <==> !Airborne(fix) && !ReportsScheduledOrLanded(aviation)
  {
    var status := if Airborne(fix) then "live" else "unknown";
    var fs := if aviation.Some? then aviation.value.flightStatus else None;
    if fs.Some? && fs.value != [] && (fs.value == "scheduled" || fs.value == "landed") then fs.value
    else status
  }

  /** A scheduled or landed report wins over the OpenSky position: moving the aircraft cannot change the status. */
  lemma ReportOverridesPosition(fix1: Option<Fix>, fix2: Option<Fix>, aviation: Option<AviationRecord>)
    requires ReportsScheduledOrLanded(aviation)
    ensures StatusOf(fix1, aviation) == StatusOf(fix2, aviation)
  {
  }

  /** Any other report (none, "active", "cancelled", an empty status, ...) leaves the status to OpenSky alone. */
  lemma OtherReportsAreIgnored(fix: Option<Fix>, aviation: Option<AviationRecord>)
    requires !ReportsScheduledOrLanded(aviation)
    ensures StatusOf(fix, aviation) == StatusOf(fix, None)
  {
  }

  // ---------------------------------------------------------------------------
  // `aviation_error`
  // ---------------------------------------------------------------------------

  /** Whether a flight entry carries an `aviation_error` key, and its value (None is JSON null). */
  datatype AviationErrorField = Absent | Present(tag: Option<string>)

  /** `aviation_error` as the route writes it: the `else` sits under `if fs`, so the key is only set when
      the flight object was truthy but had no status, and then the error tag is always None. */
  function AviationErrorAsWritten(fetched: Fetched): (r: AviationErrorField)
    ensures r.Present? <==>
      fetched.data.Some? && Truthy(fetched.data.value)
      && (fetched.data.value.flightStatus.None? || fetched.data.value.flightStatus.value == [])
    ensures r.Present? ==> r.tag == fetched.error
  {
    if fetched.data.Some? && Truthy(fetched.data.value) then
      var fs := fetched.data.value.flightStatus;
      if fs.Some? && fs.value != [] then Absent else Present(fetched.error)
    else Absent
  }

  /** `aviation_error` with the `else` attached to `if avi_data`, as the surrounding code intends: when
      no usable flight object came back, the entry says why. */
  function AviationError(fetched: Fetched): (r: AviationErrorField)
    ensures r.Present? <==> !(fetched.data.Some? && Truthy(fetched.data.value))
    ensures r.Present? ==> r.tag == fetched.error
  {
    if fetched.data.Some? && Truthy(fetched.data.value) then Absent else Present(fetched.error)
  }

  /** The field as written and the corrected field agree exactly when the flight object is truthy and
      has a status: every failed lookup, and every status-less record, is reported differently. */
  lemma AviationErrorFieldsAgree(fetched: Fetched)
    ensures AviationErrorAsWritten(fetched) == AviationError(fetched) <==>
      fetched.data.Some? && Truthy(fetched.data.value)
      && fetched.data.value.flightStatus.Some? && fetched.data.value.flightStatus.value != []
  {
  }

  /** As written, a lookup never puts an error tag into the entry: the field is absent or null. */
  lemma AsWrittenErrorIsNeverTagged(hasKey: bool, iata: string, query: (QueryKey, string) -> Response)
    ensures AviationErrorAsWritten(FetchAviation(hasKey, iata, query)) in {Absent, Present(None)}
  {
  }

  /** As written, every failed lookup (here: no API key configured) loses its reason, which the corrected
      entry reports. */
  lemma FailedLookupLosesItsReason(iata: string, query: (QueryKey, string) -> Response)
    ensures AviationErrorAsWritten(FetchAviation(false, iata, query)) == Absent
    ensures AviationError(FetchAviation(false, iata, query)) == Present(Some("no_api_key"))
  {
  }

  // ---------------------------------------------------------------------------
  // Flight entries
  // ---------------------------------------------------------------------------

  /** One element of the route's `flights` list. `aviation` is the copied AviationStack record;
      `history` is the callsign's recorded positions when the entry was built. */
  datatype FlightEntry = FlightEntry(
    callsign: string,
    iata: string,
    opensky: Option<Fix>,
    aviation: Option<AviationRecord>,
    status: string,
    aviationError: AviationErrorField,
    history: seq<Position>)

  /** Every state vector has the seven fields up to the barometric altitude the server indexes. */
  predicate WellFormed(states: seq<StateVector>) {
    forall i :: 0 <= i < |states| ==> states[i].width >= 7
  }

  /** The position recorded for a fix that has both coordinates: it keeps every field of the fix and
      is stamped with the clock reading. */
  function PositionOf(fix: Fix, now: int): (p: Position)
    requires fix.latitude.Some? && fix.longitude.Some?
    ensures Fix(Some(p.latitude), Some(p.longitude), p.heading, p.altitude) == fix
    ensures p.timestamp == now
  {
    Position(fix.latitude.value, fix.longitude.value, fix.heading, fix.altitude, now)
  }

  /** The fix of the state found for `csNorm`, if any. */
  function FixFor(states: seq<StateVector>, csNorm: string): (r: Option<Fix>)
    requires WellFormed(states)
    ensures r.Some? <==> FindState(states, csNorm).Some?
    ensures r.Some? ==> FindState(states, csNorm).value.width >= 7 && r.value == FixOf(FindState(states, csNorm).value)
  {
    match FindState(states, csNorm)
    case None => None
    case Some(st) =>
      assert exists i :: 0 <= i < |states| && states[i] == st;
      Some(FixOf(st))
  }

  /** The history store after the entry's OpenSky position is recorded (only when it has both coordinates). */
  function StoreAfter(store: Store, csNorm: string, fix: Option<Fix>, now: int): (r: Store)
    ensures fix.Some? && fix.value.latitude.Some? && fix.value.longitude.Some? && csNorm != [] ==>
      Lookup(r, csNorm) == Newest(Lookup(store, csNorm) + [PositionOf(fix.value, now)], MaxHistory)
    ensures fix.Some? && fix.value.latitude.Some? && fix.value.longitude.Some? && csNorm != [] ==>
      Lookup(r, csNorm) != [] && Lookup(r, csNorm)[|Lookup(r, csNorm)| - 1] == PositionOf(fix.value, now)
    ensures !(fix.Some? && fix.value.latitude.Some? && fix.value.longitude.Some?) || csNorm == [] ==> r == store
    ensures forall k :: k in store && k != csNorm ==> k in r && r[k] == store[k]
    ensures r.Keys <= store.Keys + {csNorm}
    ensures Bounded(store) ==> Bounded(r)
  {
    if fix.Some? && fix.value.latitude.Some? && fix.value.longitude.Some? then
      Record(store, csNorm, PositionOf(fix.value, now))
    else store
  }

  /** The flight entry put together from what the loop body looked up for `csNorm`: the converted
      code, the OpenSky fix, the AviationStack lookup, and the store after the position is recorded. */
  function Assemble(csNorm: string, iata: string, fix: Option<Fix>, fetched: Fetched, store: Store, now: int)
    : (r: (FlightEntry, Store))
    ensures r.0.callsign == csNorm && r.0.iata == iata && r.0.opensky == fix
    ensures r.0.status == StatusOf(r.0.opensky, r.0.aviation)
    ensures r.0.aviation.Some? ==> r.0.aviation == fetched.data && Truthy(r.0.aviation.value)
    ensures r.0.aviation.None? <==> fetched.data.None? || !Truthy(fetched.data.value)
    ensures r.0.aviationError.Present? ==> r.0.aviationError.tag == fetched.error
    ensures r.0.aviation.None? <==> r.0.aviationError.Present?
    ensures r.0.aviationError == AviationError(fetched)
    ensures r.1 == StoreAfter(store, csNorm, fix, now)
    ensures r.0.history == Lookup(r.1, csNorm)
  {
    var store1 := StoreAfter(store, csNorm, fix, now);
    var aviation := if fetched.data.Some? && Truthy(fetched.data.value) then fetched.data else None;
    (FlightEntry(csNorm, iata, fix, aviation, StatusOf(fix, aviation), AviationError(fetched), Lookup(store1, csNorm)),
     store1)
  }

  /** The body of the route's loop for the normalised callsign `csNorm` (the loop only ever passes
      `normalize_callsign` of a token): the flight entry, and the history store after it. */
  function Entry(csNorm: string, states: seq<StateVector>, registry: map<string, string>, hasKey: bool,
                 query: (QueryKey, string) -> Response, store: Store, now: int): (r: (FlightEntry, Store))
    requires WellFormed(states) && Normalize(csNorm) == csNorm
    ensures r.0.callsign == csNorm && r.0.iata == ToIata(csNorm, registry)
    ensures r.0.opensky == FixFor(states, csNorm)
    ensures r.0.opensky.Some? <==> FindState(states, csNorm).Some?
    ensures r.0.status == StatusOf(r.0.opensky, r.0.aviation)
    ensures r.0.status in Statuses
    ensures r.0.status == "live" ==> r.0.opensky.Some?
    ensures var fetched := FetchAviation(hasKey, ToIata(csNorm, registry), query);
      && (r.0.aviation.Some? ==> r.0.aviation == fetched.data && Truthy(r.0.aviation.value))
      && (r.0.aviation.None? <==> fetched.data.None? || !Truthy(fetched.data.value))
      && (r.0.aviationError.Present? ==> r.0.aviationError.tag == fetched.error)
      && r.0.aviationError == AviationError(fetched)
    ensures r.0.aviation.None? <==> r.0.aviationError.Present?
    ensures r.0.history == Lookup(r.1, csNorm)
    ensures r.1 == StoreAfter(store, csNorm, FixFor(states, csNorm), now)
    ensures r.0.opensky.Some? && r.0.opensky.value.latitude.Some? && r.0.opensky.value.longitude.Some? && csNorm != [] ==>
      r.0.history == Newest(Lookup(store, csNorm) + [PositionOf(r.0.opensky.value, now)], MaxHistory)
    ensures r.0.opensky.Some? && r.0.opensky.value.latitude.Some? && r.0.opensky.value.longitude.Some? && csNorm != [] ==>
      r.0.history != [] && r.0.history[|r.0.history| - 1] == PositionOf(r.0.opensky.value, now)
    ensures forall k :: k in store && k != csNorm ==> k in r.1 && r.1[k] == store[k]
    ensures r.1.Keys <= store.Keys + {csNorm}
    ensures Bounded(store) ==> Bounded(r.1) && |r.0.history| <= MaxHistory
  {
    Assemble(csNorm, ToIata(csNorm, registry), FixFor(states, csNorm),
             FetchAviation(hasKey, ToIata(csNorm, registry), query), store, now)
  }

  /** Converting a normalised callsign is converting the callsign. */
  lemma IataOfNormalized(cs: string, registry: map<string, string>)
    ensures ToIata(Normalize(cs), registry) == ToIata(cs, registry)
  {
    NormalizeIdempotent(cs);
  }

  /** Looking up a normalised callsign is looking up the callsign. */
  lemma FindStateOfNormalized(states: seq<StateVector>, cs: string)
    ensures FindState(states, Normalize(cs)) == FindState(states, cs)
  {
    NormalizeIdempotent(cs);
  }

  /** A query token (non-empty, no surrounding whitespace) normalises to its upper-case form. */
  lemma NormalizeToken(t: string)
    requires t != [] && !IsPySpace(t[0]) && !IsPySpace(t[|t| - 1])
    ensures Normalize(t) == Upper(t) && Normalize(t) != []
  {
    assert StripLeft(t, IsPySpace) == t;
    assert StripRight(t, IsPySpace) == t;
  }

  /** The entry built for query token `token`, with the clock reading `now`: it names the token,
      upper-cased, and its converted flight code; it carries the position of the OpenSky state matching
      the token, the AviationStack record fetched for the flight code when that record is truthy, and
      the error object derived from that fetch; its status is the one derived from the position and
      the record; and when the position has coordinates, the last history point is that position,
      stamped `now`. */
  predicate EntryFor(e: FlightEntry, token: string, states: seq<StateVector>, registry: map<string, string>,
                     hasKey: bool, query: (QueryKey, string) -> Response, now: int) {
    && e.callsign == Upper(token) && e.callsign != []
    && e.iata == ToIata(token, registry)
    && WellFormed(states) && e.opensky == FixFor(states, Normalize(token))
    && (e.opensky.Some? <==> FindState(states, token).Some?)
    && (var fetched := FetchAviation(hasKey, ToIata(token, registry), query);
        && e.aviation == (if fetched.data.Some? && Truthy(fetched.data.value) then fetched.data else None)
        && e.aviationError == AviationError(fetched))
    && e.status == StatusOf(e.opensky, e.aviation)
    && e.status in Statuses
    && (e.opensky.Some? && e.opensky.value.latitude.Some? && e.opensky.value.longitude.Some? ==>
          e.history != [] && e.history[|e.history| - 1] == PositionOf(e.opensky.value, now))
  }

  /** No entry holds more than `MaxHistory` positions. */
  predicate HistoriesBounded(flights: seq<FlightEntry>) {
    forall i :: 0 <= i < |flights| ==> |flights[i].history| <= MaxHistory
  }

  /** No entry of `flights` is about `key`. */
  predicate NoEntryFor(flights: seq<FlightEntry>, key: string) {
    forall i :: 0 <= i < |flights| ==> flights[i].callsign != key
  }

  /** The callsigns the entries are about. */
  function Callsigns(flights: seq<FlightEntry>): set<string> {
    set i | 0 <= i < |flights| :: flights[i].callsign
  }

  /** Every entry that is the last one about its callsign carries the history `store` holds for it. */
  predicate LatestHistoriesStored(flights: seq<FlightEntry>, store: Store) {
    forall i :: 0 <= i < |flights| && (forall j :: i < j < |flights| ==> flights[j].callsign != flights[i].callsign) ==>
      flights[i].history == Lookup(store, flights[i].callsign)
  }

  /** The entries are, position by position, the entries for the first tokens, the `i`-th built with
      the clock reading `clock(i)`. */
  predicate EntriesFor(flights: seq<FlightEntry>, tokens: seq<string>, states: seq<StateVector>, registry: map<string, string>,
                       hasKey: bool, query: (QueryKey, string) -> Response, clock: nat -> int) {
    |flights| <= |tokens| &&
    forall i :: 0 <= i < |flights| ==> EntryFor(flights[i], tokens[i], states, registry, hasKey, query, clock(i))
  }

  /** Appending the entry for the next token keeps the per-position facts the route's loop tracks. */
  lemma AppendEntry(flights: seq<FlightEntry>, e: FlightEntry, tokens: seq<string>, states: seq<StateVector>,
                    registry: map<string, string>, hasKey: bool, query: (QueryKey, string) -> Response, clock: nat -> int)
    requires |flights| < |tokens|
    requires EntriesFor(flights, tokens, states, registry, hasKey, query, clock)
    requires EntryFor(e, tokens[|flights|], states, registry, hasKey, query, clock(|flights|))
    ensures EntriesFor(flights + [e], tokens, states, registry, hasKey, query, clock)
    ensures forall k :: NoEntryFor(flights + [e], k) ==> NoEntryFor(flights, k) && k != e.callsign
    ensures HistoriesBounded(flights) && |e.history| <= MaxHistory ==> HistoriesBounded(flights + [e])
  {
    var n := |flights|;
    forall i | 0 <= i <= n ensures EntryFor((flights + [e])[i], tokens[i], states, registry, hasKey, query, clock(i)) {
      if i < n { assert (flights + [e])[i] == flights[i]; }
    }
    AppendKeepsEntries(flights, e);
  }

  /** The earlier entries of `flights + [e]` are those of `flights`, and the last is `e`. */
  lemma AppendKeepsEntries(flights: seq<FlightEntry>, e: FlightEntry)
    ensures forall k :: NoEntryFor(flights + [e], k) ==> NoEntryFor(flights, k) && k != e.callsign
    ensures HistoriesBounded(flights) && |e.history| <= MaxHistory ==> HistoriesBounded(flights + [e])
  {
    var n := |flights|;
    assert forall i :: 0 <= i < n ==> (flights + [e])[i] == flights[i];
    assert (flights + [e])[n] == e;
  }

  /** A step that adds or replaces only `e`'s key, and leaves `e`'s history stored under it, keeps the
      store's keys among the original ones and the entries' callsigns, and keeps every latest entry's
      history the stored one. */
  lemma AppendKeepsStore(flights: seq<FlightEntry>, e: FlightEntry, store: Store, before: Store, after: Store)
    requires before.Keys <= store.Keys + Callsigns(flights)
    requires LatestHistoriesStored(flights, before)
    requires after.Keys <= before.Keys + {e.callsign}
    requires forall k :: k in before && k != e.callsign ==> k in after && after[k] == before[k]
    requires e.history == Lookup(after, e.callsign)
    ensures after.Keys <= store.Keys + Callsigns(flights + [e])
    ensures LatestHistoriesStored(flights + [e], after)
  {
    var n := |flights|;
    var all := flights + [e];
    assert all[n] == e;
    assert forall i :: 0 <= i < n ==> all[i] == flights[i];
    assert Callsigns(all) == Callsigns(flights) + {e.callsign} by {
      forall c | c in Callsigns(all) ensures c in Callsigns(flights) + {e.callsign} {
        var i :| 0 <= i < |all| && all[i].callsign == c;
        if i < n { assert flights[i].callsign == c; }
      }
      forall c | c in Callsigns(flights) ensures c in Callsigns(all) {
        var i :| 0 <= i < n && flights[i].callsign == c;
        assert all[i].callsign == c;
      }
      assert all[n].callsign == e.callsign;
    }
    forall i | 0 <= i < |all| && (forall j :: i < j < |all| ==> all[j].callsign != all[i].callsign)
      ensures all[i].history == Lookup(after, all[i].callsign)
    {
      if i < n {
        assert all[n].callsign != flights[i].callsign;
        forall j | i < j < n ensures flights[j].callsign != flights[i].callsign {
          assert all[j] == flights[j];
        }
        assert flights[i].history == Lookup(before, flights[i].callsign);
      }
    }
  }

  /** A query token: non-empty, with no surrounding whitespace. */
  predicate IsToken(t: string) {
    t != [] && !IsPySpace(t[0]) && !IsPySpace(t[|t| - 1])
  }

  /** One pass of the route's loop, seen from the loop: the entry for a query token, and the store after it. */
  function Visit(token: string, states: seq<StateVector>, registry: map<string, string>, hasKey: bool,
                 query: (QueryKey, string) -> Response, store: Store, now: int): (r: (FlightEntry, Store))
    requires WellFormed(states) && IsToken(token)
    ensures EntryFor(r.0, token, states, registry, hasKey, query, now)
    ensures r.0.history == Lookup(r.1, r.0.callsign)
    ensures r.1 == StoreAfter(store, Normalize(token), FixFor(states, Normalize(token)), now)
    ensures forall k :: k in store && k != r.0.callsign ==> k in r.1 && r.1[k] == store[k]
    ensures r.1.Keys <= store.Keys + {r.0.callsign}
    ensures Bounded(store) ==> Bounded(r.1) && |r.0.history| <= MaxHistory
  {
    EntryOfToken(token, states, registry, hasKey, query, store, now);
    Entry(Normalize(token), states, registry, hasKey, query, store, now)
  }

  /** The entry built for a query token's normalised form is the entry for the token. */
  lemma EntryOfToken(token: string, states: seq<StateVector>, registry: map<string, string>, hasKey: bool,
                     query: (QueryKey, string) -> Response, store: Store, now: int)
    requires WellFormed(states) && IsToken(token)
    ensures Normalize(token) == Upper(token) && Normalize(Normalize(token)) == Normalize(token)
    ensures EntryFor(Entry(Normalize(token), states, registry, hasKey, query, store, now).0, token, states, registry, hasKey, query, now)
  {
    NormalizeToken(token);
    NormalizeIdempotent(token);
    IataOfNormalized(token, registry);
    FindStateOfNormalized(states, token);
  }

  /** `POSITION_HISTORY` after the route's loop has visited `tokens`, in order: each visit records the
      fix of the state matching the token, stamped with its own clock reading, when it has both
      coordinates, and leaves the store alone otherwise. */
  function StoreAfterAll(store: Store, tokens: seq<string>, states: seq<StateVector>, clock: nat -> int): Store
    requires WellFormed(states)
    decreases |tokens|
  {
    if tokens == [] then store
    else
      var n := |tokens| - 1;
      StoreAfter(StoreAfterAll(store, tokens[..n], states, clock), Normalize(tokens[n]),
                 FixFor(states, Normalize(tokens[n])), clock(n))
  }

  /** Visiting one more token applies its `StoreAfter` to the store the earlier tokens left. */
  lemma StoreAfterAllStep(store: Store, tokens: seq<string>, n: nat, states: seq<StateVector>, clock: nat -> int)
    requires WellFormed(states) && n < |tokens|
    ensures StoreAfterAll(store, tokens[..n + 1], states, clock) ==
      StoreAfter(StoreAfterAll(store, tokens[..n], states, clock), Normalize(tokens[n]), FixFor(states, Normalize(tokens[n])), clock(n))
  {
    assert tokens[..n + 1][..n] == tokens[..n];
  }

  /** What the route's loop knows after visiting the first `|flights|` tokens, starting from `store`
      and reaching `after`. */
  ghost predicate Visited(flights: seq<FlightEntry>, after: Store, tokens: seq<string>, states: seq<StateVector>,
                    registry: map<string, string>, hasKey: bool, query: (QueryKey, string) -> Response,
                    store: Store, clock: nat -> int) {
    && WellFormed(states) && |flights| <= |tokens|
    && after == StoreAfterAll(store, tokens[..|flights|], states, clock)
    && EntriesFor(flights, tokens, states, registry, hasKey, query, clock)
    && (forall k :: k in store && NoEntryFor(flights, k) ==> k in after && after[k] == store[k])
    && after.Keys <= store.Keys + Callsigns(flights)
    && LatestHistoriesStored(flights, after)
    && (Bounded(store) ==> Bounded(after) && HistoriesBounded(flights))
  }

  /** One pass of the route's loop: visits the next token, and keeps what the loop knows. */
  method VisitNext(flights: seq<FlightEntry>, after: Store, tokens: seq<string>, states: seq<StateVector>,
                   registry: map<string, string>, hasKey: bool, query: (QueryKey, string) -> Response,
                   store: Store, clock: nat -> int)
    returns (flights': seq<FlightEntry>, after': Store)
    requires WellFormed(states) && |flights| < |tokens| && IsToken(tokens[|flights|])
    requires Visited(flights, after, tokens, states, registry, hasKey, query, store, clock)
    ensures |flights'| == |flights| + 1
    ensures Visited(flights', after', tokens, states, registry, hasKey, query, store, clock)
  {
    var n := |flights|;
    var step := Visit(tokens[n], states, registry, hasKey, query, after, clock(n));
    StoreAfterAllStep(store, tokens, n, states, clock);
    AppendEntry(flights, step.0, tokens, states, registry, hasKey, query, clock);
    AppendKeepsStore(flights, step.0, store, after, step.1);
    flights' := flights + [step.0];
    after' := step.1;
  }

  /** The loop of `api_flights` over the query tokens, in order; `clock(i)` is the clock reading taken
      while the `i`-th token is visited. */
  method VisitAll(tokens: seq<string>, states: seq<StateVector>, registry: map<string, string>, hasKey: bool,
                  query: (QueryKey, string) -> Response, store: Store, clock: nat -> int)
    returns (flights: seq<FlightEntry>, after: Store)
    requires WellFormed(states)
    requires forall i :: 0 <= i < |tokens| ==> IsToken(tokens[i])
    ensures tokens == [] ==> after == store
    ensures |flights| == |tokens| && EntriesFor(flights, tokens, states, registry, hasKey, query, clock)
    ensures after == StoreAfterAll(store, tokens, states, clock)
    ensures forall k :: k in store && NoEntryFor(flights, k) ==> k in after && after[k] == store[k]
    ensures after.Keys <= store.Keys + Callsigns(flights)
    ensures LatestHistoriesStored(flights, after)
    ensures Bounded(store) ==> Bounded(after) && HistoriesBounded(flights)
  {
    flights := [];
    after := store;
    for n := 0 to |tokens|
      invariant |flights| == n
      invariant n == 0 ==> after == store
      invariant Visited(flights, after, tokens, states, registry, hasKey, query, store, clock)
    {
      flights, after := VisitNext(flights, after, tokens, states, registry, hasKey, query, store, clock);
    }
    assert tokens[..|tokens|] == tokens;
  }

  /** `api_flights`: one entry per callsign of the query, in query order, recording positions into the
      history store as it goes; `clock(i)` is the clock reading taken while the `i`-th callsign is visited. */
  method ApiFlights(q: string, states: seq<StateVector>, registry: map<string, string>, hasKey: bool,
                    query: (QueryKey, string) -> Response, store: Store, clock: nat -> int)
    returns (flights: seq<FlightEntry>, after: Store)
    requires WellFormed(states)
    ensures q == [] ==> flights == [] && after == store
    ensures |flights| == |ParseCallsigns(q)| && EntriesFor(flights, ParseCallsigns(q), states, registry, hasKey, query, clock)
    ensures after == StoreAfterAll(store, ParseCallsigns(q), states, clock)
    ensures forall k :: k in store && NoEntryFor(flights, k) ==> k in after && after[k] == store[k]
    ensures after.Keys <= store.Keys + Callsigns(flights)
    ensures LatestHistoriesStored(flights, after)
    ensures Bounded(store) ==> Bounded(after) && HistoriesBounded(flights)
  {
    var tokens := ParseCallsigns(q);
    flights, after := VisitAll(tokens, states, registry, hasKey, query, store, clock);
  }
}

=== FILE: history.dfy ===
/** The server's in-memory short position history (`POSITION_HISTORY` and `record_history` in
    testing/app.py): per flight, the most recent positions, oldest first. */
module History {
  import opened Wrappers

  /** One recorded position; `timestamp` is the whole-second clock reading the caller supplies. */
  datatype Position = Position(latitude: real, longitude: real, heading: Option<real>, altitude: Option<int>, timestamp: int)

  /** How many positions are kept per flight (`MAX_HISTORY`). */
  const MaxHistory: nat := 30

  /** Flight key to its positions, oldest first. */
  type Store = map<string, seq<Position>>

  /** The positions stored under `key`; none when the key is absent (`POSITION_HISTORY.get(key, [])`). */
  function Lookup(store: Store, key: string): seq<Position> {
    if key in store then store[key] else []
  }

  /** Every flight holds at most `MaxHistory` positions. */
  ghost predicate Bounded(store: Store) {
    forall key :: key in store ==> |store[key]| <= MaxHistory
  }

  /** The last `n` elements of `s` (all of them when there are fewer). */
  function Newest<T>(s: seq<T>, n: nat): seq<T> {
    if |s| > n then s[|s| - n..] else s
  }

  /** `record_history`: an empty key changes nothing; otherwise `p` is appended to the key's positions
      and, when that makes more than `MaxHistory`, only the newest `MaxHistory` are kept. Other keys are
      untouched. */
  function Record(store: Store, key: string, p: Position): (r: Store)
    ensures key == [] ==> r == store
    ensures key != [] ==> key in r && r.Keys == store.Keys + {key}
    ensures key != [] ==> r[key] == Newest(Lookup(store, key) + [p], MaxHistory)
    ensures key != [] ==> 0 < |r[key]| <= MaxHistory && r[key][|r[key]| - 1] == p
    ensures forall k :: k in store && k != key ==> k in r && r[k] == store[k]
    ensures Bounded(store) ==> Bounded(r)
  {
    if key == [] then store
    else
      var appended := Lookup(store, key) + [p];
      store[key := if |appended| > MaxHistory then appended[|appended| - MaxHistory..] else appended]
  }

  /** Records the positions `ps` under `key`, one after the other. */
  function RecordAll(store: Store, key: string, ps: seq<Position>): Store
    decreases |ps|
  {
    if ps == [] then store else RecordAll(Record(store, key, ps[0]), key, ps[1..])
  }

  /** Keeping the newest `n` before appending more does not change the newest `n` afterwards. */
  lemma NewestThenAppend<T>(a: seq<T>, b: seq<T>, n: nat)
    ensures Newest(Newest(a, n) + b, n) == Newest(a + b, n)
  {
    var t := Newest(a, n);
    assert t + b == (a + b)[|a| - |t|..];
  }

  /** One step of recording, seen on the lists: keep the newest after the first append, then append the rest. */
  lemma NewestStep<T>(before: seq<T>, ps: seq<T>, n: nat)
    requires ps != []
    ensures Newest(Newest(before + [ps[0]], n) + ps[1..], n) == Newest(before + ps, n)
  {
    NewestThenAppend(before + [ps[0]], ps[1..], n);
    assert [ps[0]] + ps[1..] == ps;
    assert before + [ps[0]] + ps[1..] == before + ps;
  }

  /** However many positions are recorded under a key, it holds exactly the newest `MaxHistory` of
      everything recorded there, in order. */
  lemma {:induction false} RecordAllKeepsNewest(store: Store, key: string, ps: seq<Position>)
    requires key != [] && |Lookup(store, key)| <= MaxHistory
    ensures Lookup(RecordAll(store, key, ps), key) == Newest(Lookup(store, key) + ps, MaxHistory)
    decreases |ps|
  {
    var before := Lookup(store, key);
    if ps == [] {
      assert before + ps == before;
    } else {
      var next := Record(store, key, ps[0]);
      assert Lookup(next, key) == Newest(before + [ps[0]], MaxHistory);
      RecordAllKeepsNewest(next, key, ps[1..]);
      NewestStep(before, ps, MaxHistory);
    }
  }
}

=== FILE: opensky.dfy ===
/** The OpenSky side of the flight server (testing/app.py): the state vectors it reads and the lookup
    of a tracked callsign among them. */
module OpenSky {
  import opened Wrappers
  import opened Strings
  import opened Callsign

  /** The fields of one OpenSky state vector the server reads: index 1 (callsign), 5 (longitude),
      6 (latitude), 7 (barometric altitude), 10 (true track, used as heading) and 13 (geometric
      altitude). `width` is the length of the list OpenSky sent; a field at or beyond it is absent.
      Altitudes are whole metres: only the comparison with 1000 is modelled. */
  datatype StateVector = StateVector(
    width: nat,
    callsign: Option<string>,
    longitude: Option<real>,
    latitude: Option<real>,
    baroAltitude: Option<int>,
    trueTrack: Option<real>,
    geoAltitude: Option<int>)

  /** The position fields the server copies into a flight entry (`entry["opensky"]`). */
  datatype Fix = Fix(latitude: Option<real>, longitude: Option<real>, heading: Option<real>, altitude: Option<int>)

  /** `(st[1] or "").strip().upper()`: a missing callsign reads as empty. */
  function StateCallsign(st: StateVector): (r: string)
    ensures st.callsign.None? ==> r == []
  {
    Upper(Strip(st.callsign.GetOr([]), IsPySpace))
  }

  /** The state's callsign is brought to the same form as the tracked one: it is the normalised
      callsign field. */
  lemma StateCallsignIsNormalized(st: StateVector)
    ensures StateCallsign(st) == Normalize(st.callsign.GetOr([]))
  {
    if st.callsign.GetOr([]) == [] {
      assert StripLeft([], IsPySpace) == [];
    }
  }

  /** The server's "robust" match: a state with a non-empty callsign matches when the two callsigns are
      equal or either is a prefix of the other (OpenSky pads callsigns). */
  predicate Matches(st: StateVector, csNorm: string) {
    var cs := StateCallsign(st);
    cs != [] && (cs == csNorm || csNorm <= cs || cs <= csNorm)
  }

  /** Matching, independently of how the source phrases it: the state has a callsign and the two
      callsigns agree on every position both have. */
  lemma MatchesIffAgreeOnCommonPrefix(st: StateVector, csNorm: string)
    ensures var cs := StateCallsign(st);
      Matches(st, csNorm) <==> cs != [] && forall k :: 0 <= k < |cs| && k < |csNorm| ==> cs[k] == csNorm[k]
  {
    var cs := StateCallsign(st);
    if cs != [] && forall k :: 0 <= k < |cs| && k < |csNorm| ==> cs[k] == csNorm[k] {
      if |csNorm| <= |cs| {
        assert csNorm == cs[..|csNorm|];
      } else {
        assert cs == csNorm[..|cs|];
      }
    }
  }

  /** The index of the first state, at or after `from`, that matches `csNorm`. */
  function FirstMatch(states: seq<StateVector>, csNorm: string, from: nat): (r: Option<nat>)
    requires from <= |states|
    ensures r.Some? ==> from <= r.value < |states| && Matches(states[r.value], csNorm)
    ensures r.Some? ==> forall j :: from <= j < r.value ==> !Matches(states[j], csNorm)
    ensures r.None? ==> forall j :: from <= j < |states| ==> !Matches(states[j], csNorm)
    decreases |states| - from
  {
    if from == |states| then None
    else if Matches(states[from], csNorm) then Some(from)
    else FirstMatch(states, csNorm, from + 1)
  }

  /** The state at the index found, if any. */
  function StateAt(states: seq<StateVector>, csNorm: string): Option<StateVector> {
    match FirstMatch(states, csNorm, 0)
    case None => None
    case Some(i) => Some(states[i])
  }

  /** `find_opensky_state_by_callsign` as the source writes it: only a literally empty callsign is
      refused, so a callsign of blanks normalises to "" and "" is a prefix of every state callsign. */
  function FindStateAsWritten(states: seq<StateVector>, callsign: string): (r: Option<StateVector>)
    ensures callsign == [] ==> r.None?
  {
    if callsign == [] then None else StateAt(states, Normalize(callsign))
  }

  /** A blank but non-empty callsign matches the first state that has any callsign at all: when the
      `k`-th state is the first with a callsign, it is the one found. */
  lemma BlankCallsignMatchesAnyState(states: seq<StateVector>, callsign: string, k: nat)
    requires callsign != [] && Normalize(callsign) == []
    requires k < |states| && StateCallsign(states[k]) != []
    requires forall j :: 0 <= j < k ==> StateCallsign(states[j]) == []
    ensures FindStateAsWritten(states, callsign) == Some(states[k])
  {
    assert Matches(states[k], []);
  }

  /** `find_opensky_state_by_callsign` with its guard applied to the normalised callsign, as the
      refusal of empty callsigns evidently intends: the first state, in list order, whose callsign
      equals the normalised one or is a prefix of it or has it as a prefix. */
  function FindState(states: seq<StateVector>, callsign: string): (r: Option<StateVector>)
    ensures Normalize(callsign) == [] ==> r.None?
    ensures r.Some? ==> StateCallsign(r.value) != []
    ensures r.Some? ==> exists i :: 0 <= i < |states| && states[i] == r.value && Matches(states[i], Normalize(callsign))
                                     && forall j :: 0 <= j < i ==> !Matches(states[j], Normalize(callsign))
    ensures r.None? && Normalize(callsign) != [] ==> forall j :: 0 <= j < |states| ==> !Matches(states[j], Normalize(callsign))
  {
    var csNorm := Normalize(callsign);
    if csNorm == [] then None else StateAt(states, csNorm)
  }

  /** The two versions differ only on blank callsigns; the server only looks up non-blank ones. */
  lemma FindStateAgreesOnNonBlank(states: seq<StateVector>, callsign: string)
    requires Normalize(callsign) != []
    ensures FindStateAsWritten(states, callsign) == FindState(states, callsign)
  {
  }

  /** The position the server reads from a matched state: heading only when the list reaches index 10,
      altitude from index 13 when present in the list, else index 7. */
  function FixOf(st: StateVector): (r: Fix)
    requires st.width >= 7
    ensures r.latitude == st.latitude && r.longitude == st.longitude
    ensures st.width > 10 ==> r.heading == st.trueTrack
    ensures st.width <= 10 ==> r.heading.None?
    ensures st.width > 13 ==> r.altitude == st.geoAltitude
    ensures 7 < st.width <= 13 ==> r.altitude == st.baroAltitude
    ensures st.width == 7 ==> r.altitude.None?
  {
    var heading := if st.width > 10 then st.trueTrack else None;
    var altitude := if st.width > 13 then st.geoAltitude else if st.width > 7 then st.baroAltitude else None;
    Fix(st.latitude, st.longitude, heading, altitude)
  }

  /** The fix reads no field beyond the list OpenSky sent: two states that agree on the fields they
      both sent give the same fix. */
  lemma FixOfReadsOnlySentFields(a: StateVector, b: StateVector)
    requires a.width == b.width >= 7
    requires a.latitude == b.latitude && a.longitude == b.longitude
    requires a.width > 7 ==> a.baroAltitude == b.baroAltitude
    requires a.width > 10 ==> a.trueTrack == b.trueTrack
    requires a.width > 13 ==> a.geoAltitude == b.geoAltitude
    ensures FixOf(a) == FixOf(b)
  {
  }
}

=== FILE: seqs.dfy ===
// Small facts about sequence slicing, stated once so that the proofs that need them stay cheap.
module Seqs {
  /** A non-empty list is its front followed by its last element. */
  lemma SplitLast<T>(s: seq<T>)
    requires s != []
    ensures s[..|s| - 1] + [s[|s| - 1]] == s
  {
  }

  /** Taking `k` elements of the suffix from `i` is the slice from `i` to `i + k`. */
  lemma SliceOfSuffix<T>(s: seq<T>, i: nat, k: nat)
    requires i + k <= |s|
    ensures s[i..][..k] == s[i..i + k]
  {
  }

  /** Dropping `k` elements of the suffix from `i` is the suffix from `i + k`. */
  lemma SuffixOfSuffix<T>(s: seq<T>, i: nat, k: nat)
    requires i + k <= |s|
    ensures s[i..][k..] == s[i + k..]
  {
  }

  /** Replacing an element before the last one changes only the front. */
  lemma UpdateFront<T>(s: seq<T>, i: nat, x: T)
    requires i + 1 < |s|
    ensures s[i := x] == s[..|s| - 1][i := x] + [s[|s| - 1]]
  {
  }

  /** Replacing the last element keeps the front. */
  lemma UpdateLast<T>(s: seq<T>, x: T)
    requires s != []
    ensures s[|s| - 1 := x] == s[..|s| - 1] + [x]
  {
  }

  /** Putting an element in front of a concatenation puts it in front of the first part. */
  lemma ConsConcat<T>(h: T, f: seq<T>, g: seq<T>)
    ensures [h] + (f + g) == ([h] + f) + g
  {
  }

  /** The head and tail of a concatenation whose first part is not empty come from that part. */
  lemma HeadTailConcat<T>(f: seq<T>, g: seq<T>)
    requires f != []
    ensures (f + g)[0] == f[0] && (f + g)[1..] == f[1..] + g
  {
  }
}

=== FILE: strings.dfy ===
/** String helpers shared by the server (Python) and the page script (JavaScript).
    Strings are sequences of Unicode scalar values; case mapping is restricted to ASCII. */
module Strings {
  import opened Seqs


  /** The characters Python's `str.strip()` removes when given no argument: those `str.isspace()` accepts. */
  predicate IsPySpace(c: char) {
    || '\t' <= c <= '\r' || '\U{1C}' <= c <= ' ' || c == '\U{85}' || c == '\U{A0}' || c == '\U{1680}'
    || '\U{2000}' <= c <= '\U{200A}' || c == '\U{2028}' || c == '\U{2029}' || c == '\U{202F}'
    || c == '\U{205F}' || c == '\U{3000}'
  }

  /** The characters JavaScript's `String.prototype.trim()` removes: WhiteSpace and LineTerminator. */
  predicate IsJsSpace(c: char) {
    || '\t' <= c <= '\r' || c == ' ' || c == '\U{A0}' || c == '\U{1680}'
    || '\U{2000}' <= c <= '\U{200A}' || c == '\U{2028}' || c == '\U{2029}' || c == '\U{202F}'
    || c == '\U{205F}' || c == '\U{3000}' || c == '\U{FEFF}'
  }

  predicate IsAsciiLower(c: char) { 'a' <= c <= 'z' }
  predicate IsAsciiUpper(c: char) { 'A' <= c <= 'Z' }
  predicate IsLetter(c: char) { IsAsciiLower(c) || IsAsciiUpper(c) }
  predicate IsDigit(c: char) { '0' <= c <= '9' }
  predicate IsAlnum(c: char) { IsLetter(c) || IsDigit(c) }

  /** Every character of `s` satisfies `ws`. */
  predicate AllIn(s: string, ws: char -> bool) {
    forall k :: 0 <= k < |s| ==> ws(s[k])
  }

  /** Python's `str.isalpha()`: non-empty and letters only. */
  predicate IsAlphaStr(s: string) {
    |s| > 0 && forall k :: 0 <= k < |s| ==> IsLetter(s[k])
  }

  /** Python's `str.isdigit()`: non-empty and digits only. */
  predicate IsDigitStr(s: string) {
    |s| > 0 && forall k :: 0 <= k < |s| ==> IsDigit(s[k])
  }

  predicate HasDigit(s: string) {
    exists k :: 0 <= k < |s| && IsDigit(s[k])
  }

  function UpperChar(c: char): (d: char)
    ensures IsAsciiLower(c) ==> IsAsciiUpper(d) && d as int == c as int - 32
    ensures !IsAsciiLower(c) ==> d == c
  {
    if IsAsciiLower(c) then (c as int - 32) as char else c
  }

  function LowerChar(c: char): (d: char)
    ensures IsAsciiUpper(c) ==> IsAsciiLower(d) && d as int == c as int + 32
    ensures !IsAsciiUpper(c) ==> d == c
  {
    if IsAsciiUpper(c) then (c as int + 32) as char else c
  }

  /** Python `str.upper()` / JavaScript `toUpperCase()`, ASCII letters only. */
  function Upper(s: string): (r: string)
    ensures |r| == |s|
    ensures forall k :: 0 <= k < |s| ==> r[k] == UpperChar(s[k])
  {
    seq(|s|, k requires 0 <= k < |s| => UpperChar(s[k]))
  }

  /** JavaScript `toLowerCase()`, ASCII letters only. */
  function Lower(s: string): (r: string)
    ensures |r| == |s|
    ensures forall k :: 0 <= k < |s| ==> r[k] == LowerChar(s[k])
  {
    seq(|s|, k requires 0 <= k < |s| => LowerChar(s[k]))
  }

  /** Replaces every occurrence of `a` by `b` (Python `str.replace` with one-character arguments). */
  function ReplaceChar(s: string, a: char, b: char): (r: string)
    ensures |r| == |s|
    ensures forall k :: 0 <= k < |s| ==> r[k] == (if s[k] == a then b else s[k])
  {
    seq(|s|, k requires 0 <= k < |s| => if s[k] == a then b else s[k])
  }

  // ---------------------------------------------------------------------------
  // Stripping
  // ---------------------------------------------------------------------------

  /** Drops the leading characters that satisfy `ws`. */
  function StripLeft(s: string, ws: char -> bool): (r: string)
    ensures |r| <= |s|
    ensures r == [] || !ws(r[0])
  {
    if |s| > 0 && ws(s[0]) then StripLeft(s[1..], ws) else s
  }

  /** Drops the trailing characters that satisfy `ws`. */
  function StripRight(s: string, ws: char -> bool): (r: string)
    ensures |r| <= |s|
    ensures r == [] || !ws(r[|r| - 1])
  {
    if |s| > 0 && ws(s[|s| - 1]) then StripRight(s[..|s| - 1], ws) else s
  }

  /** What `StripLeft` keeps is a suffix, and what it drops satisfies `ws`. */
  lemma {:induction false} StripLeftShape(s: string, ws: char -> bool)
    ensures var r := StripLeft(s, ws); r == s[|s| - |r|..] && AllIn(s[..|s| - |r|], ws)
    decreases |s|
  {
    if |s| > 0 && ws(s[0]) {
      StripLeftShape(s[1..], ws);
      var r := StripLeft(s, ws);
      assert s[..|s| - |r|] == [s[0]] + s[1..][..|s| - 1 - |r|];
    }
  }

  /** What `StripRight` keeps is a prefix, and what it drops satisfies `ws`. */
  lemma {:induction false} StripRightShape(s: string, ws: char -> bool)
    ensures var r := StripRight(s, ws); r == s[..|r|] && AllIn(s[|r|..], ws)
    decreases |s|
  {
    if |s| > 0 && ws(s[|s| - 1]) {
      StripRightShape(s[..|s| - 1], ws);
      var r := StripRight(s, ws);
      assert s[|r|..] == s[..|s| - 1][|r|..] + [s[|s| - 1]];
    }
  }

  /** Python `str.strip(chars)` / JavaScript `trim()` with the characters `ws`: the middle of `s`
      left once the longest prefix and suffix made of `ws` are removed. */
  function Strip(s: string, ws: char -> bool): (r: string)
    ensures |r| <= |s|
    ensures r == [] || (!ws(r[0]) && !ws(r[|r| - 1]))
  {
    var l := StripLeft(s, ws);
    var r := StripRight(l, ws);
    assert r != [] ==> r[0] == l[0] by { StripRightShape(l, ws); }
    r
  }

  /** What stripping leaves is the slice of `s` that starts where the leading `ws` run ends, and
      only `ws` characters surround it. */
  lemma StripIsMiddle(s: string, ws: char -> bool)
    ensures var r := Strip(s, ws); var i := |s| - |StripLeft(s, ws)|;
      i + |r| <= |s| && r == s[i..i + |r|] && AllIn(s[..i], ws) && AllIn(s[i + |r|..], ws)
  {
    StripIsSlice(s, ws);
    StripDropsOnly(s, ws);
  }

  /** The slice half of `StripIsMiddle`. */
  lemma StripIsSlice(s: string, ws: char -> bool)
    ensures var r := Strip(s, ws); var i := |s| - |StripLeft(s, ws)|;
      i + |r| <= |s| && r == s[i..i + |r|]
  {
    var l := StripLeft(s, ws);
    var r := StripRight(l, ws);
    StripLeftShape(s, ws);
    StripRightShape(l, ws);
    SliceOfSuffix(s, |s| - |l|, |r|);
  }

  /** The surroundings half of `StripIsMiddle`. */
  lemma StripDropsOnly(s: string, ws: char -> bool)
    ensures var r := Strip(s, ws); var i := |s| - |StripLeft(s, ws)|;
      i + |r| <= |s| && AllIn(s[..i], ws) && AllIn(s[i + |r|..], ws)
  {
    var l := StripLeft(s, ws);
    var r := StripRight(l, ws);
    StripLeftShape(s, ws);
    StripRightShape(l, ws);
    SuffixOfSuffix(s, |s| - |l|, |r|);
  }

  /** Upper-casing what stripping leaves is upper-casing the slice of `s` that starts where the leading
      `ws` run ends; only `ws` characters surround that slice. */
  lemma UpperStripIsUpperMiddle(s: string, ws: char -> bool, r: string, i: int)
    requires r == Upper(Strip(s, ws)) && i == |s| - |StripLeft(s, ws)|
    ensures 0 <= i && i + |r| <= |s| && r == Upper(s[i..i + |r|]) && AllIn(s[..i], ws) && AllIn(s[i + |r|..], ws)
  {
    StripIsMiddle(s, ws);
    UpperOfMiddle(s, Strip(s, ws), r, i, ws);
  }

  /** Upper-casing a slice of `s` that only `ws` characters surround gives the upper-cased slice,
      still surrounded by them. */
  lemma UpperOfMiddle(s: string, m: string, r: string, i: nat, ws: char -> bool)
    requires i + |m| <= |s| && m == s[i..i + |m|] && AllIn(s[..i], ws) && AllIn(s[i + |m|..], ws)
    requires r == Upper(m)
    ensures i + |r| <= |s| && r == Upper(s[i..i + |r|]) && AllIn(s[..i], ws) && AllIn(s[i + |r|..], ws)
  {
  }

  /** Stripping only removes characters: a character absent from `s` is absent from the result. */
  lemma StripAvoids(s: string, ws: char -> bool, c: char)
    requires c !in s
    ensures c !in Strip(s, ws)
  {
    var l := StripLeft(s, ws);
    assert c !in l by { StripLeftShape(s, ws); assert l == s[|s| - |l|..]; }
    assert c !in StripRight(l, ws) by { StripRightShape(l, ws); }
  }

  /** Stripping a stripped string changes nothing. */
  lemma StripIdempotent(s: string, ws: char -> bool)
    ensures Strip(Strip(s, ws), ws) == Strip(s, ws)
  {
    var r := Strip(s, ws);
    assert StripLeft(r, ws) == r;
    assert StripRight(r, ws) == r;
  }

  lemma {:induction false} StripLeftAllIn(s: string, ws: char -> bool)
    requires AllIn(s, ws)
    ensures StripLeft(s, ws) == []
    decreases |s|
  {
    if s != [] { StripLeftAllIn(s[1..], ws); }
  }

  lemma {:induction false} StripLeftPrefixed(a: string, t: string, ws: char -> bool)
    requires AllIn(a, ws)
    ensures StripLeft(a + t, ws) == StripLeft(t, ws)
    decreases |a|
  {
    if a == [] {
      assert a + t == t;
    } else {
      assert (a + t)[0] == a[0] && ws(a[0]);
      assert (a + t)[1..] == a[1..] + t;
      StripLeftPrefixed(a[1..], t, ws);
    }
  }

  lemma {:induction false} StripLeftSuffixed(t: string, b: string, ws: char -> bool)
    requires StripLeft(t, ws) != []
    ensures StripLeft(t + b, ws) == StripLeft(t, ws) + b
    decreases |t|
  {
    if ws(t[0]) {
      assert (t + b)[1..] == t[1..] + b;
      StripLeftSuffixed(t[1..], b, ws);
    }
  }

  lemma {:induction false} StripRightSuffixed(t: string, b: string, ws: char -> bool)
    requires AllIn(b, ws)
    ensures StripRight(t + b, ws) == StripRight(t, ws)
    decreases |b|
  {
    if b != [] {
      assert (t + b)[..|t + b| - 1] == t + b[..|b| - 1];
      StripRightSuffixed(t, b[..|b| - 1], ws);
    } else {
      assert t + b == t;
    }
  }

  lemma AllInConcat(a: string, b: string, ws: char -> bool)
    requires AllIn(a, ws) && AllIn(b, ws)
    ensures AllIn(a + b, ws)
  {
    assert forall k :: 0 <= k < |a + b| ==> (a + b)[k] == (if k < |a| then a[k] else b[k - |a|]);
  }

  /** Surrounding `s` with more characters of `ws` does not change what stripping leaves. */
  lemma StripSurrounded(a: string, s: string, b: string, ws: char -> bool)
    requires AllIn(a, ws) && AllIn(b, ws)
    ensures Strip(a + s + b, ws) == Strip(s, ws)
  {
    assert a + s + b == a + (s + b);
    StripLeftPrefixed(a, s + b, ws);
    if StripLeft(s, ws) != [] {
      StripLeftSuffixed(s, b, ws);
      StripRightSuffixed(StripLeft(s, ws), b, ws);
    } else {
      StripLeftShape(s, ws);
      assert s[..|s|] == s;
      AllInConcat(s, b, ws);
      StripLeftAllIn(s + b, ws);
    }
  }

  // ---------------------------------------------------------------------------
  // Splitting and joining on one separator character
  // ---------------------------------------------------------------------------

  /** Python `s.split(sep)` for a one-character separator: the pieces between separators, always at least one. */
  function Split(s: string, sep: char): (pieces: seq<string>)
    ensures |pieces| >= 1
    ensures forall i :: 0 <= i < |pieces| ==> sep !in pieces[i]
    decreases |s|
  {
    if s == [] then [[]]
    else
      var rest := Split(s[1..], sep);
      if s[0] == sep then [[]] + rest
      else [[s[0]] + rest[0]] + rest[1..]
  }

  /** One step of `Split`: the first character either ends the first piece or joins it. */
  lemma SplitCons(c: char, rest: string, sep: char)
    ensures Split([c] + rest, sep)
         == if c == sep then [[]] + Split(rest, sep)
            else [[c] + Split(rest, sep)[0]] + Split(rest, sep)[1..]
  {
    assert ([c] + rest)[0] == c;
    assert ([c] + rest)[1..] == rest;
  }

  /** A separator splits the string in two: the pieces before it, then the pieces after it. */
  lemma {:induction false} SplitAtSeparator(x: string, sep: char, y: string)
    ensures Split(x + [sep] + y, sep) == Split(x, sep) + Split(y, sep)
    decreases |x|
  {
    if x == [] {
      assert x + [sep] + y == [sep] + y;
      SplitCons(sep, y, sep);
    } else {
      var tail := x[1..];
      assert x + [sep] + y == [x[0]] + (tail + [sep] + y);
      assert x == [x[0]] + tail;
      SplitCons(x[0], tail + [sep] + y, sep);
      SplitCons(x[0], tail, sep);
      SplitAtSeparator(tail, sep, y);
      var front := Split(tail, sep);
      var back := Split(y, sep);
      if x[0] == sep {
        ConsConcat([], front, back);
      } else {
        HeadTailConcat(front, back);
        ConsConcat([x[0]] + front[0], front[1..], back);
      }
    }
  }

  /** A string without the separator is a single piece. */
  lemma {:induction false} SplitWithoutSeparator(s: string, sep: char)
    requires sep !in s
    ensures Split(s, sep) == [s]
    decreases |s|
  {
    if s != [] {
      assert sep !in s[1..] by { assert forall k :: 0 <= k < |s| - 1 ==> s[1..][k] == s[k + 1]; }
      SplitWithoutSeparator(s[1..], sep);
      assert [s[0]] + s[1..] == s;
    }
  }

  /** Replacing characters works piece by piece. */
  lemma ReplaceCharConcat(x: string, y: string, a: char, b: char)
    ensures ReplaceChar(x + y, a, b) == ReplaceChar(x, a, b) + ReplaceChar(y, a, b)
  {
  }

  /** Python `sep.join(pieces)`. */
  function Join(pieces: seq<string>, sep: char): string
    requires |pieces| >= 1
  {
    if |pieces| == 1 then pieces[0] else pieces[0] + [sep] + Join(pieces[1..], sep)
  }

  /** Joining the pieces of a split gives back the original string. */
  lemma {:induction false} JoinSplit(s: string, sep: char)
    ensures Join(Split(s, sep), sep) == s
    decreases |s|
  {
    if s != [] {
      var rest := Split(s[1..], sep);
      JoinSplit(s[1..], sep);
      if s[0] == sep {
        assert Split(s, sep)[1..] == rest;
      } else {
        var p := Split(s, sep);
        assert p[0] == [s[0]] + rest[0];
        if |rest| == 1 {
          assert s == [s[0]] + s[1..];
        } else {
          assert p[1..] == rest[1..];
          assert Join(rest, sep) == rest[0] + [sep] + Join(rest[1..], sep);
          assert s == [s[0]] + s[1..];
        }
      }
    }
  }

  /** Splitting a join of separator-free pieces gives back the pieces. */
  lemma {:induction false} SplitJoin(pieces: seq<string>, sep: char)
    requires |pieces| >= 1
    requires forall i :: 0 <= i < |pieces| ==> sep !in pieces[i]
    ensures Split(Join(pieces, sep), sep) == pieces
    decreases |pieces|, |pieces[0]|
  {
    var p0 := pieces[0];
    if p0 == [] {
      if |pieces| > 1 {
        SplitJoin(pieces[1..], sep);
        assert Join(pieces, sep) == [sep] + Join(pieces[1..], sep);
        assert Join(pieces, sep)[1..] == Join(pieces[1..], sep);
        assert pieces == [[]] + pieces[1..];
      }
    } else {
      var shorter := [p0[1..]] + pieces[1..];
      assert forall i :: 0 <= i < |shorter| ==> sep !in shorter[i] by {
        forall i | 0 <= i < |shorter| ensures sep !in shorter[i] {
          if i == 0 {
            assert forall c :: c in p0[1..] ==> c in p0;
          } else {
            assert shorter[i] == pieces[i];
          }
        }
      }
      SplitJoin(shorter, sep);
      var j := Join(pieces, sep);
      assert j == [p0[0]] + Join(shorter, sep) by {
        if |pieces| == 1 {
          assert p0 == [p0[0]] + p0[1..];
        } else {
          assert shorter[1..] == pieces[1..];
          assert p0 == [p0[0]] + p0[1..];
        }
      }
      assert j[0] == p0[0] && j[1..] == Join(shorter, sep);
      assert p0[0] != sep by { assert p0[0] in p0; }
      assert pieces == [[p0[0]] + shorter[0]] + shorter[1..] by {
        assert [p0[0]] + p0[1..] == p0;
        assert shorter[1..] == pieces[1..];
      }
    }
  }

  // ---------------------------------------------------------------------------
  // Code-point order on strings (Python's `<` on `str`)
  // ---------------------------------------------------------------------------

  /** `a` sorts strictly before `b`: lexicographic by code point, a proper prefix first. */
  predicate LexLess(a: string, b: string)
    decreases |a|
  {
    if a == [] then b != []
    else b != [] && (a[0] < b[0] || (a[0] == b[0] && LexLess(a[1..], b[1..])))
  }

  lemma {:induction false} LexLessIrreflexive(a: string)
    ensures !LexLess(a, a)
    decreases |a|
  {
    if a != [] { LexLessIrreflexive(a[1..]); }
  }

  lemma {:induction false} LexLessTransitive(a: string, b: string, c: string)
    requires LexLess(a, b) && LexLess(b, c)
    ensures LexLess(a, c)
    decreases |a|
  {
    if a != [] && a[0] == b[0] && b[0] == c[0] {
      LexLessTransitive(a[1..], b[1..], c[1..]);
    }
  }

  lemma {:induction false} LexLessTotal(a: string, b: string)
    ensures a == b || LexLess(a, b) || LexLess(b, a)
    decreases |a|
  {
    if a != [] && b != [] && a[0] == b[0] {
      LexLessTotal(a[1..], b[1..]);
      if a[1..] == b[1..] {
        assert a == [a[0]] + a[1..] && b == [b[0]] + b[1..];
      }
    }
  }
}

=== FILE: wrappers.dfy ===
/** Optional values, standing in for Python's `None` and JavaScript's `null`/`undefined`. */
module Wrappers {

  datatype Option<+T> = None | Some(value: T) {

    /** The wrapped value, or `default` when there is none. */
    function GetOr(default: T): T {
      match this
      case Some(v) => v
      case None => default
    }
  }

  /** The values of the present elements, in order (a comprehension filtering out `None`). */
  function Values<T>(xs: seq<Option<T>>): (r: seq<T>)
    ensures |r| <= |xs|
    ensures forall i :: 0 <= i < |r| ==> Some(r[i]) in xs
    decreases |xs|
  {
    if xs == [] then []
    else
      var n := |xs| - 1;
      var front := Values(xs[..n]);
      assert forall i :: 0 <= i < |front| ==> Some(front[i]) in xs[..n];
      match xs[n]
      case None => front
      case Some(v) => front + [v]
  }

  /** A value is among the values exactly when it is present in the list. */
  lemma {:induction false} ValuesMembers<T>(xs: seq<Option<T>>, v: T)
    ensures v in Values(xs) <==> Some(v) in xs
    decreases |xs|
  {
    if xs != [] {
      var n := |xs| - 1;
      ValuesMembers(xs[..n], v);
      assert xs == xs[..n] + [xs[n]];
    }
  }

  /** Appending an element appends its value, when it has one. */
  lemma ValuesSnoc<T>(xs: seq<Option<T>>, x: Option<T>)
    ensures Values(xs + [x]) == Values(xs) + (if x.Some? then [x.value] else [])
  {
    assert (xs + [x])[..|xs|] == xs;
  }
}
